=== FILE: README.md ===
# Support/resistance level detector — Dafny model

This project models the incremental support/resistance detector `SupportResistanceIdentifier`
(V.py) and the pure trade-accounting helpers of the trade blotter (dashboard.py), and proves
properties of the model.

The detector keeps a price series of OHLC bars and two level tables, `support_levels` and
`resistance_levels`. Each table maps an exact price to its evidence: touches, breaks and the
last bar that touched it. A cursor, `last_processed_index`, marks how much of the series has
been scanned. The detector works in three parts:

- **Extremum scan** (`Scan`). A bar is a support (resistance) candidate when its low (high)
  equals the minimum (maximum) of the trailing `window` bars ending at it. Only full windows
  count. A range with fewer than `window` bars is skipped outright.
- **Evidence tracker** (`Levels`). A candidate price that is not yet a key enters the table as
  one touch, no breaks, last touched at the candidate's bar. For a price already present, the
  candidate bar's close is judged against a fractional tolerance band. The outcome is a break,
  a touch (which also moves `last_touch`), or no change.
- **Orchestration** (`Detector`). The historical load walks the series in chunks of 1000 bars.
  The incremental call processes everything from the cursor to the end of the series. Either
  way the cursor then moves to the end of the series. After each processed range, a clustering
  pass is due when the bar count is a multiple of `dbscan_interval`, and a density pass when it
  is a multiple of `kde_interval`.

The dashboard helpers (`Dashboard`) cover four things. They compute profit in dollars per
million per pip. They take the signed-size weighted average entry of open trades. They place
take-profit and stop-loss targets a number of pips from the entry. They recompute a trade
group's summary: net size and direction, realized, unrealized and total profit, size entered,
status and initial direction.

Modelling choices:

- Prices are `real` and bars are positions in a `seq<Bar>`. Pandas index labels are taken to
  be the bar positions.
- Each level table is a `map<real, Level>`, and every update is a pure function.
- The detector state is an immutable `Detector` value. A series that has not been supplied yet
  is `None`.
- The two consolidation passes are recorded as a log of `Pass` events (`Dbscan(end)`,
  `Kde(end)`), appended in the order in which the code invokes them.
- Python's `%` (sign of the divisor) is written out as `PyMod`. It is zero exactly when Dafny's
  `%` is zero, so the trigger condition is the same for any non-zero interval.

The model follows the code:

- The code raises no stale-data, invalid-bar or insufficient-data errors. The only error
  modelled is calling `identify_levels(None)` before any data, where `len(None)` raises
  (`Error.NoFrame`).
- The historical load neither clears the tables nor resets the cursor before it runs. It
  replaces the series, keeps the old evidence, and sets the cursor to the new length at the end.
- The candidate filter has a lower bound only (`index >= start_index`). Each historical chunk
  therefore re-scans every later bar of the series, not just its own chunk.
- When a non-empty batch of fewer than `window` new bars arrives, the scan returns early but the
  cursor still advances past it (`ShortBatchSkipped`). Every later incremental range starts at or
  after that cursor, and only bars at or after a range's start are emitted, so no later
  incremental call ever records those bars as candidates (`IncrementalKeys`).
- In `update_group_stats`, `avgClosePrice` is the weighted average entry of the OPEN trades
  whose type is exactly "Short", because `calculate_weighted_average` keeps only trades whose
  result is "Open". It is not an average of close prices. Both direction tests follow
  the code: `Direction` treats every type other than "Long" as short, while the "Short" list
  matches the string exactly.

## Model

| member | source | states |
|---|---|---|
| `Detector.New` | V.py:8-19 | A fresh detector has no series, empty support and resistance tables, cursor 0 and no pass run; it satisfies the state invariant |
| `Detector.DefaultsValid` | V.py:9-18 | The default configuration (window 20, clustering every 100 bars, density every 500) is valid, and a detector built from it starts in a valid state |
| `Levels.ApplyCandidate` | V.py:88-104 | One candidate changes at most the key of its own price: the key set grows by exactly that price, every other entry is unchanged, a new price enters as 1 touch / 0 breaks / last touch at the candidate's bar, an existing level's counts never decrease and grow by at most one, and touches >= 1 and last-touch bounds are preserved |
| `Levels.SupportBands` | V.py:93-98 | Support: break exactly when close < p(1-t), touch exactly when p(1-t) <= close <= p, and for non-negative p and t no change exactly when close > p |
| `Levels.ResistanceBands` | V.py:99-104 | Resistance: break exactly when close > p(1+t), touch exactly when p <= close <= p(1+t), and for non-negative p and t no change exactly when close < p |
| `Levels.ResistanceMirrorsSupport` | V.py:93-104 | The resistance rule is the support rule applied to the negated price, threshold and close |
| `Levels.SupportExample` | V.py:93-98 | With p = 1.1000 and t = 0.001, a close of 1.0995 touches, 1.0985 breaks and 1.1050 changes nothing |
| `Levels.ExistingSupportUpdate` | V.py:91-98 | For a support price already in the table: a close below the band adds one break only; a close in the band adds one touch and sets last touch to the candidate's bar; for a non-negative price and threshold, a close above the level leaves the table unchanged |
| `Levels.ExistingResistanceUpdate` | V.py:91-104 | For a resistance price already in the table: a close above the band adds one break only; a close in the band adds one touch and sets last touch to the candidate's bar; for a non-negative price and threshold, a close below the level leaves the table unchanged |
| `Levels.ProcessLevels` | V.py:87-104 | Recording a list of candidates adds exactly their prices to the key set, removes nothing, leaves the entries of all other prices unchanged, never lowers any level's counts, and keeps touches >= 1 |
| `Levels.ProcessLevelsConcat` | V.py:87-104 | Recording `a + b` equals recording `a` and then recording `b` on the resulting table, so candidates are applied one at a time in list order |
| `Levels.ProcessLevelsSingle` | V.py:88-104 | Recording one candidate is applying the evidence rule once, judged with the close of the candidate's own bar |
| `Levels.RepeatedSupportTouch` | V.py:87-98 | Two equal-price lows, the later one closing inside the band, leave a single level with two touches, no breaks, last touched at the later bar |
| `Scan.WindowExtreme` | V.py:70-75 | The rolling extreme of a window is at least as extreme as every bar of the window and is attained by one of them |
| `Scan.FlaggedIffExtremum` | V.py:70-75 | Comparing a bar with its window's max (min) flags it exactly when no bar of its full trailing window is higher (lower); ties qualify and bars before index window-1 never qualify |
| `Scan.StrictPeakIsOnlyCandidate` | V.py:70-75 | A bar strictly more extreme than all others is flagged, and none of the following window-1 bars is |
| `Scan.CandidatesSound` | V.py:74-79 | The emitted candidates are flagged bars at or after the range start, carrying their own bar's price, in strictly ascending index order, and no flagged bar at or after the start is missed |
| `Scan.CandidateIndicesExact` | V.py:74-79 | An index is emitted exactly when it is at or after the range start, inside the series, and a local extremum |
| `Scan.CandidatePricesExact` | V.py:78-79 | A price is emitted exactly when some local extremum at or after the range start has that price |
| `Scan.CandidatePricesShrink` | V.py:78-79 | Scanning from a later start yields a subset of the candidate prices |
| `Scan.ScanCandidates` | V.py:69-79 | The imperative rolling-window scan computes exactly the candidate list of the reference definition |
| `Scan.WindowExtremeLoop` | V.py:70-75 | The left-to-right running max (min) over a window equals the window's extreme |
| `Scan.VectorizedProcess` | V.py:65-85 | A range of fewer than `window` bars leaves both tables unchanged; otherwise the support keys become the old keys plus the lows of local minima at or after the start, and the resistance keys the old keys plus the highs of local maxima; no key is removed, no count decreases, and both tables keep touches >= 1 |
| `Scan.UntouchedLevelUnchanged` | V.py:78-85 | A support (resistance) level whose price is not the low (high) of any local minimum (maximum) at or after the start is left as it was |
| `Detector.PyModZero` | V.py:33-36 | Python's remainder is zero exactly when Dafny's is, for any non-zero divisor |
| `Detector.Triggers` | V.py:33-36 | After `end` bars a clustering pass is recorded exactly when `end` is a multiple of `dbscan_interval`, a density pass exactly when it is a multiple of `kde_interval`, and nothing else |
| `Detector.ChunksFrom` | V.py:27-30 | The chunks start at the first position, end at the series length, are non-empty, at most 1000 bars long and contiguous |
| `Detector.ChunkPositions` | V.py:29-30 | The `k`-th chunk is exactly `[from + 1000k, min(from + 1000(k+1), n))` |
| `Detector.ChunkEnds` | V.py:29-30 | A historical load of `n` bars has a chunk ending at `e` exactly when `e` is a positive multiple of 1000 up to `n`, or `e` is `n` itself (for `n > 0`) |
| `Detector.ChunksPartition` | V.py:29-30 | Every position of the series lies in exactly one historical chunk |
| `Detector.LoadChunks` | V.py:29-36 | Running the chunks never removes a key, keeps touches >= 1, changes nothing when every chunk is shorter than the window, only appends to the pass log, and logs a pass at `e` exactly when some chunk ends at `e` and `e` is a multiple of that pass's interval |
| `Detector.InitializeWithHistoricalData` | V.py:21-39 | After a historical load the series is the history, the cursor equals its length, earlier keys are kept, history shorter than the window adds nothing, and the passes logged are exactly those due at chunk ends |
| `Detector.HistoricalPasses` | V.py:29-36 | A load logs a clustering (density) pass at `e` exactly when `0 < e <= n`, `e` is a multiple of 1000 or equals `n`, and `e` is a multiple of `dbscan_interval` (`kde_interval`) |
| `Detector.LoadChunksKeys` | V.py:29-79 | Every key a load adds on a side is the price of a local extremum of the whole series, and if the first chunk is at least a window long every extremum price at or after its start is added |
| `Detector.HistoricalLoadKeys` | V.py:21-85 | With a window of at most 1000 bars and at least a window of history, before any consolidation pass rewrites the tables, the load's support keys are exactly the old keys plus the lows of all local minima of the history, and the resistance keys likewise with the highs of local maxima, because the first chunk's scan has no upper bound |
| `Detector.LongWindowLoadsNothing` | V.py:29-67 | With a window longer than 1000 bars every chunk is too short, so a historical load leaves both tables unchanged |
| `Detector.Appended` | V.py:47-48 | Appending new data keeps the existing series as a prefix, ends with exactly the new bars, and has their combined length; a missing series contributes nothing |
| `Detector.IdentifyLevels` | V.py:41-63 | The call fails exactly when there is neither a series nor new data; otherwise the series is the old one with the new bars appended, the cursor becomes the series length and never decreases, no key is removed, and the state invariant holds; when the series grew past the cursor the passes due at the new length are appended to the log, and otherwise the log and the tables are unchanged |
| `Detector.ReplayIsNoOp` | V.py:50-53 | With no new data and the cursor at the end of the series, the call leaves the whole state unchanged |
| `Detector.ReplayAfterLoadIsNoOp` | V.py:21-63 | Right after a historical load, a call with no new data changes nothing |
| `Detector.ShortBatchSkipped` | V.py:50-67 | With the cursor at the end of the series (or of no series), a non-empty batch of fewer than `window` new bars leaves both tables unchanged but still moves the cursor past it and logs the passes due at the new length |
| `Detector.IncrementalKeys` | V.py:50-54 | After a long enough batch, including the first batch of a detector with no series, and before any consolidation pass rewrites the tables, the support keys are exactly the old keys plus the lows of local minima at or after the old cursor, and likewise the resistance keys with highs of local maxima |
| `Detector.LoadThenFeedCursor` | V.py:38-61 | Loading history and then feeding more bars leaves the series as their concatenation and the cursor at its end |
| `Dashboard.Direction` | dashboard.py:25 | The direction is +1 exactly for "Long" and -1 otherwise |
| `Dashboard.Pnl` | dashboard.py:24-28 | Profit is zero when exit equals entry or size is zero; with positive size a long gains exactly when the exit is above the entry and loses exactly when below, and a short the reverse |
| `Dashboard.PnlLongShortOpposite` | dashboard.py:24-28 | A long earns the exact negation of a short on the same prices and size |
| `Dashboard.PnlLinearInSize` | dashboard.py:24-28 | Profit is additive in size, and one pip on one million long is 100 dollars |
| `Dashboard.WeightedAverage` | dashboard.py:30-33 | The average is 0 when the signed open size nets to zero; otherwise the average times the net signed open size equals the signed-size-weighted sum of open entries |
| `Dashboard.OpenTradesExact` | dashboard.py:31-32 | The open-trade filter keeps exactly the trades whose result is "Open" |
| `Dashboard.OfType` | dashboard.py:62-63 | The type filter keeps exactly the trades whose type equals the given string |
| `Dashboard.OpenTradesConcat` | dashboard.py:31-32 | The open filter distributes over concatenation, so every open trade is kept, in order, repeats included |
| `Dashboard.OpenTradesSingle` | dashboard.py:31-32 | A single trade survives the open filter exactly when its result is "Open" |
| `Dashboard.OfTypeConcat` | dashboard.py:62-63 | The type filter distributes over concatenation, so every matching trade is kept, in order, repeats included |
| `Dashboard.OfTypeSingle` | dashboard.py:62-63 | A single trade survives the type filter exactly when its type equals the given string |
| `Dashboard.WeightedAverageOnlyOpen` | dashboard.py:30-33 | Trades that are not open have no effect on the average |
| `Dashboard.WeightedAverageOfUniformEntries` | dashboard.py:30-33 | When every open trade entered at the same price and the net size is non-zero, the average is that price |
| `Dashboard.WeightedAverageWithinEntries` | dashboard.py:30-33 | With only long, positive-size open trades entered within [lo, hi], and at least one of them, the average lies within [lo, hi] |
| `Dashboard.TpSl` | dashboard.py:35-42 | Before rounding, the take-profit lies `tp_pips` pips and the stop-loss `sl_pips` pips from the entry, in the trade's favour and against it; with positive pips a long has sl < entry < tp and a short tp < entry < sl |
| `Dashboard.TpSlMirror` | dashboard.py:35-41 | Long and short targets are reflections of each other about the entry |
| `Dashboard.UpdateGroupStats` | dashboard.py:44-75 | Net size is the signed open size; direction is "Long", "Short", "Flat" exactly as the net size is positive, negative, zero; status is "Closed" exactly when the net size is zero; total profit is realized plus unrealized; the size entered is the unsigned sum of all trade sizes |
| `Dashboard.GroupAverageCoversOpen` | dashboard.py:45-49 | The group's weighted average price equals the weighted average over all its trades, so closed and other non-open trades have no effect on it |
| `Dashboard.ProfitAppendStep` | dashboard.py:52-56 | Adding one trade to a group adds its profit at its close price to the realized profit exactly when it is closed, and its profit at the current price to the unrealized profit exactly when it is open; otherwise both totals stay the same |
| `Dashboard.AvgEntryOnlyOpenLongs` | dashboard.py:30-65 | The average entry price is the weighted average of the open "Long" trades alone, 0 when there are none |
| `Dashboard.AvgCloseOnlyOpenShorts` | dashboard.py:30-66 | The average close price is the weighted average of the open "Short" trades alone, 0 when there are none |
| `Dashboard.InitialDirectionStable` | dashboard.py:74-75 | An empty group's initial direction is "Flat"; a non-empty group's is its first trade's type, and adding trades later never changes it |
| `Dashboard.TotalPnLPerTrade` | dashboard.py:52-59 | Total profit equals the sum over all trades of each closed trade's profit at its close price and each open trade's profit at the current price |
| `Dashboard.NetSizeWithinEntered` | dashboard.py:44-67 | With non-negative sizes, the net open size is bounded in absolute value by the unsigned total size entered |
| `Dashboard.NoOpenTradesIsClosed` | dashboard.py:44-72 | A group with no open trade is "Closed" and "Flat", with no unrealized profit, a zero weighted average and total profit equal to realized |

## Left out

- `_apply_dbscan`, `_cluster_levels`, `_apply_kde`, `_smooth_levels` and `get_active_levels` are not part of this model. Their bodies are not in V.py, which elides them after line 106, and they wrap DBSCAN clustering and Gaussian kernel density estimation, which are foreign floating-point numerics. Only when they are invoked is modelled, as the `Pass` log; their rewriting of the tables is not.
- The parameters `kde_bandwidth`, `eps` and `min_samples` are carried in `Params` but feed only those passes.
- Pandas mechanics are re-expressed as sequence operations: `pd.concat`, the coercion of the rolling lambda's boolean result to float and of the NaN warm-up values, and `iteritems`. Index labels are assumed equal to positions. A new batch whose index restarts at 0 would make `df.index >= start_index` and `df.loc[index, 'Close']` misbehave in pandas, and that is not modelled.
- The candidate mask at V.py:78-79 is modelled as the boolean filter it is meant to be: a bar is kept when its rolling test holds and its index is at or after the start. As written, the expression combines the float result of `rolling.apply` (1.0, 0.0 or NaN) with a boolean array using `&`, which pandas may reject with a `TypeError` instead of filtering; and `iteritems` (V.py:88) is absent from pandas 2.0 and later. The model assumes both work as intended.
- IEEE floating point is not modelled: prices and sizes are exact reals, and dictionary keys compare by exact equality.
- `Dashboard.TpSl`: states the targets before `round(..., 5)`, because rounding to five decimals is floating-point behaviour.
- Configuration errors are preconditions (`Params.Valid`), not modelled error paths: a window below 1, and an interval of 0, where Python's `%` raises `ZeroDivisionError`.
- `Dashboard.UpdateGroupStats`: requires every closed trade to carry a close price, because the code indexes `closePrice` directly and would raise `KeyError` otherwise. The group dictionary's other keys are untouched by the code and are not modelled.
- Lines 77-425 of dashboard.py are not modelled: Streamlit UI, session state, JSON export/import and rendering, which are I/O.
- Plot.py, Eik.py, Eik2.py and Demo.py are not modelled: charting, vendor streaming clients with network access, and tutorial text.
- The code keeps no per-level state across consolidation passes and does not keep the two tables disjoint; neither is claimed.

=== FILE: bars.dfy ===
/** Price bars, the two sides a level can sit on, and extremum candidates. */
module Bars {

  /** One OHLC bar of the series; its position in the series is its index. */
  datatype Bar = Bar(open: real, high: real, low: real, close: real)

  /** Support levels come from lows, resistance levels from highs. */
  datatype Side = Support | Resistance

  /** A bar flagged by the extremum scan: its index and the extremum price. */
  datatype Candidate = Candidate(index: nat, price: real)

  /** The price a side reads from a bar: the low for support, the high for resistance. */
  function Price(side: Side, b: Bar): real {
    if side.Support? then b.low else b.high
  }

  /** `a` is at least as extreme as `b`: no higher for support, no lower for resistance. */
  predicate AtLeastAsExtreme(side: Side, a: real, b: real) {
    if side.Support? then a <= b else a >= b
  }

  /** The more extreme of two prices: the minimum for support, the maximum for resistance. */
  function MoreExtreme(side: Side, a: real, b: real): (r: real)
    ensures r == a || r == b
    ensures AtLeastAsExtreme(side, r, a) && AtLeastAsExtreme(side, r, b)
  {
    if side.Support? then (if a <= b then a else b) else (if a >= b then a else b)
  }

  /** The set of prices carried by a list of candidates. */
  function Prices(cs: seq<Candidate>): set<real> {
    if |cs| == 0 then {} else {cs[0].price} + Prices(cs[1..])
  }

  /** The set of bar indices carried by a list of candidates. */
  function Indices(cs: seq<Candidate>): set<nat> {
    if |cs| == 0 then {} else {cs[0].index} + Indices(cs[1..])
  }
}

=== FILE: dashboard.dfy ===
/** The trade-blotter's pure accounting helpers: profit and loss, the signed-size weighted
    average, take-profit/stop-loss targets, and a group's summary statistics. */
module Dashboard {
  import opened Wrappers

  /** One trade record. `tradeType` is "Long" or "Short", `result` is "Open" or "Closed";
      `closePrice` is present once the trade is closed. Sizes are in millions. */
  datatype Trade = Trade(tradeType: string, result: string, size: real, entryPrice: real, closePrice: Option<real>)

  /** +1 for "Long", -1 for anything else. */
  function Direction(tradeType: string): (d: real)
    ensures d == 1.0 || d == -1.0
    ensures d == 1.0 <==> tradeType == "Long"
  {
    if tradeType == "Long" then 1.0 else -1.0
  }

  /** Pips per unit of price. */
  const PipsPerUnit: real := 10000.0
  /** Dollars per pip per million traded. */
  const DollarsPerPip: real := 100.0
  /** Price of one pip. */
  const PipSize: real := 0.0001

  /** The dollar profit of moving from `entry` to `exit` with `size` millions in direction `tradeType`. */
  function Pnl(entry: real, exit: real, tradeType: string, size: real): (r: real)
    ensures exit == entry || size == 0.0 ==> r == 0.0
    ensures size > 0.0 && tradeType == "Long" ==> (r > 0.0 <==> exit > entry) && (r < 0.0 <==> exit < entry)
    ensures size > 0.0 && tradeType != "Long" ==> (r > 0.0 <==> exit < entry) && (r < 0.0 <==> exit > entry)
  {
    PnlSign(exit - entry, Direction(tradeType), size);
    (exit - entry) * Direction(tradeType) * PipsPerUnit * DollarsPerPip * size
  }

  lemma PnlSign(diff: real, dir: real, size: real)
    requires dir == 1.0 || dir == -1.0
    ensures diff == 0.0 || size == 0.0 ==> diff * dir * PipsPerUnit * DollarsPerPip * size == 0.0
    ensures size > 0.0 ==> (diff * dir * PipsPerUnit * DollarsPerPip * size > 0.0 <==> diff * dir > 0.0)
    ensures size > 0.0 ==> (diff * dir * PipsPerUnit * DollarsPerPip * size < 0.0 <==> diff * dir < 0.0)
  {
    var m := diff * dir;
    assert diff * dir * PipsPerUnit * DollarsPerPip * size == m * (1000000.0 * size);
  }

  /** A long and a short on the same prices and size earn opposite amounts. */
  lemma PnlLongShortOpposite(entry: real, exit: real, size: real)
    ensures Pnl(entry, exit, "Long", size) == -Pnl(entry, exit, "Short", size)
  {
  }

  /** Profit is linear in size: one million traded at one pip is 100 dollars. */
  lemma PnlLinearInSize(entry: real, exit: real, tradeType: string, s1: real, s2: real)
    ensures Pnl(entry, exit, tradeType, s1 + s2) == Pnl(entry, exit, tradeType, s1) + Pnl(entry, exit, tradeType, s2)
    ensures Pnl(entry, entry + PipSize, "Long", 1.0) == DollarsPerPip
  {
  }

  predicate IsOpen(t: Trade) {
    t.result == "Open"
  }

  predicate IsClosed(t: Trade) {
    t.result == "Closed"
  }

  /** A trade's size with the sign of its direction. */
  function SignedSize(t: Trade): real {
    t.size * Direction(t.tradeType)
  }

  /** The trades whose result is "Open", in order. */
  function OpenTrades(ts: seq<Trade>): (r: seq<Trade>)
    ensures |r| <= |ts|
    ensures forall i :: 0 <= i < |r| ==> IsOpen(r[i])
  {
    if |ts| == 0 then [] else (if IsOpen(ts[0]) then [ts[0]] else []) + OpenTrades(ts[1..])
  }

  /** The open filter distributes over concatenation: every open trade is kept, in
      order, repeated records included. */
  lemma {:induction false} OpenTradesConcat(a: seq<Trade>, b: seq<Trade>)
    ensures OpenTrades(a + b) == OpenTrades(a) + OpenTrades(b)
  {
    if |a| == 0 {
      assert a + b == b;
    } else {
      assert a + b == [a[0]] + (a[1..] + b);
      assert (a + b)[1..] == a[1..] + b;
      OpenTradesConcat(a[1..], b);
    }
  }

  /** A single trade is kept by the open filter exactly when it is open. */
  lemma OpenTradesSingle(t: Trade)
    ensures OpenTrades([t]) == (if IsOpen(t) then [t] else [])
  {
    assert [t][1..] == [];
  }

  /** The type filter distributes over concatenation: every matching trade is kept,
      in order, repeated records included. */
  lemma {:induction false} OfTypeConcat(a: seq<Trade>, b: seq<Trade>, tradeType: string)
    ensures OfType(a + b, tradeType) == OfType(a, tradeType) + OfType(b, tradeType)
  {
    if |a| == 0 {
      assert a + b == b;
    } else {
      assert (a + b)[1..] == a[1..] + b;
      OfTypeConcat(a[1..], b, tradeType);
    }
  }

  /** A single trade is kept by the type filter exactly when its type matches. */
  lemma OfTypeSingle(t: Trade, tradeType: string)
    ensures OfType([t], tradeType) == (if t.tradeType == tradeType then [t] else [])
  {
    assert [t][1..] == [];
  }

  /** The open trades are exactly the trades whose result is "Open". */
  lemma {:induction false} OpenTradesExact(ts: seq<Trade>)
    ensures forall t :: t in OpenTrades(ts) <==> t in ts && IsOpen(t)
  {
    if |ts| > 0 {
      OpenTradesExact(ts[1..]);
      assert ts == [ts[0]] + ts[1..];
    }
  }

  /** The trades of one type, in order. */
  function OfType(ts: seq<Trade>, tradeType: string): (r: seq<Trade>)
    ensures |r| <= |ts|
    ensures forall t :: t in r <==> t in ts && t.tradeType == tradeType
  {
    if |ts| == 0 then [] else (if ts[0].tradeType == tradeType then [ts[0]] else []) + OfType(ts[1..], tradeType)
  }

  /** The net signed size of `ts`. */
  function SumSignedSize(ts: seq<Trade>): real {
    if |ts| == 0 then 0.0 else SignedSize(ts[0]) + SumSignedSize(ts[1..])
  }

  /** The sum of entry price times signed size over `ts`. */
  function SumWeightedEntry(ts: seq<Trade>): real {
    if |ts| == 0 then 0.0 else ts[0].entryPrice * SignedSize(ts[0]) + SumWeightedEntry(ts[1..])
  }

  /** The sum of unsigned sizes over `ts`. */
  function SumSize(ts: seq<Trade>): real {
    if |ts| == 0 then 0.0 else ts[0].size + SumSize(ts[1..])
  }

  /** The profit of every trade of `ts` marked at `price`. */
  function SumPnlAt(ts: seq<Trade>, price: real): real {
    if |ts| == 0 then 0.0 else Pnl(ts[0].entryPrice, price, ts[0].tradeType, ts[0].size) + SumPnlAt(ts[1..], price)
  }

  /** Every closed trade carries its close price. */
  predicate ClosedHavePrices(ts: seq<Trade>) {
    forall i :: 0 <= i < |ts| && IsClosed(ts[i]) ==> ts[i].closePrice.Some?
  }

  /** The profit of every closed trade of `ts` at its own close price. */
  function SumRealized(ts: seq<Trade>): real
    requires ClosedHavePrices(ts)
  {
    if |ts| == 0 then 0.0
    else
      (if IsClosed(ts[0]) then Pnl(ts[0].entryPrice, ts[0].closePrice.value, ts[0].tradeType, ts[0].size) else 0.0)
        + SumRealized(ts[1..])
  }

  predicate IsQuotient(q: real, a: real, b: real) {
    q * b == a
  }

  /** Real division `a / b`, picked out as the unique `q` with `q * b == a`, and 0 for `b == 0`. */
  function Ratio(a: real, b: real): (r: real)
    ensures b != 0.0 ==> r * b == a
    ensures b == 0.0 ==> r == 0.0
  {
    if b != 0.0 then
      assert IsQuotient(a / b, a, b);
      var q :| IsQuotient(q, a, b); q
    else 0.0
  }

  /** The entry price of the open trades weighted by signed size; 0 when the signed size nets to 0. */
  function WeightedAverage(ts: seq<Trade>): (r: real)
    ensures SumSignedSize(OpenTrades(ts)) == 0.0 ==> r == 0.0
    ensures SumSignedSize(OpenTrades(ts)) != 0.0 ==> r * SumSignedSize(OpenTrades(ts)) == SumWeightedEntry(OpenTrades(ts))
  {
    var open := OpenTrades(ts);
    Ratio(SumWeightedEntry(open), SumSignedSize(open))
  }

  /** Filtering the open trades twice is filtering once. */
  lemma {:induction false} OpenTradesIdempotent(ts: seq<Trade>)
    ensures OpenTrades(OpenTrades(ts)) == OpenTrades(ts)
  {
    if |ts| > 0 {
      OpenTradesIdempotent(ts[1..]);
      var rest := OpenTrades(ts[1..]);
      if IsOpen(ts[0]) {
        var r := [ts[0]] + rest;
        assert r[1..] == rest;
        assert OpenTrades(r) == [ts[0]] + OpenTrades(rest);
      } else {
        assert OpenTrades(ts) == rest;
      }
    }
  }

  /** Only open trades matter to the weighted average. */
  lemma WeightedAverageOnlyOpen(ts: seq<Trade>)
    ensures WeightedAverage(ts) == WeightedAverage(OpenTrades(ts))
  {
    OpenTradesIdempotent(ts);
  }

  /** When every open trade entered at the same price and the net size is not zero, the average
      is that price. */
  lemma WeightedAverageOfUniformEntries(ts: seq<Trade>, p: real)
    requires forall i :: 0 <= i < |ts| && IsOpen(ts[i]) ==> ts[i].entryPrice == p
    requires SumSignedSize(OpenTrades(ts)) != 0.0
    ensures WeightedAverage(ts) == p
  {
    OpenEntriesUniform(ts, p);
    UniformRatio(OpenTrades(ts), p);
  }

  /** Entries all at `p` weigh to `p`. */
  lemma UniformRatio(ts: seq<Trade>, p: real)
    requires AllEnteredAt(ts, p)
    ensures SumSignedSize(ts) != 0.0 ==> Ratio(SumWeightedEntry(ts), SumSignedSize(ts)) == p
  {
    UniformWeightedEntry(ts, p);
    RatioOfMultiple(SumWeightedEntry(ts), SumSignedSize(ts), p);
  }

  /** A multiple `p * b` divided by `b` is `p`. */
  lemma RatioOfMultiple(a: real, b: real, p: real)
    requires a == p * b
    ensures b != 0.0 ==> Ratio(a, b) == p
  {
    if b != 0.0 {
      assert (Ratio(a, b) - p) * b == 0.0;
    }
  }

  /** Scaling by a positive factor keeps the order. */
  lemma ScaleMonotone(a: real, b: real, t: real)
    requires a <= b && t > 0.0
    ensures a * t <= b * t
  {
    assert (b - a) * t >= 0.0;
  }

  /** Every trade of `ts` entered at `p`. */
  predicate AllEnteredAt(ts: seq<Trade>, p: real) {
    |ts| == 0 || (ts[0].entryPrice == p && AllEnteredAt(ts[1..], p))
  }

  lemma {:induction false} OpenEntriesUniform(ts: seq<Trade>, p: real)
    requires forall i :: 0 <= i < |ts| && IsOpen(ts[i]) ==> ts[i].entryPrice == p
    ensures AllEnteredAt(OpenTrades(ts), p)
  {
    if |ts| > 0 {
      assert forall i :: 0 <= i < |ts[1..]| ==> ts[1..][i] == ts[i + 1];
      OpenEntriesUniform(ts[1..], p);
      var rest := OpenTrades(ts[1..]);
      if IsOpen(ts[0]) {
        var r := [ts[0]] + rest;
        assert r[1..] == rest;
      } else {
        assert OpenTrades(ts) == rest;
      }
    }
  }

  lemma {:induction false} UniformWeightedEntry(ts: seq<Trade>, p: real)
    requires AllEnteredAt(ts, p)
    ensures SumWeightedEntry(ts) == p * SumSignedSize(ts)
  {
    if |ts| > 0 {
      UniformWeightedEntry(ts[1..], p);
      var s := SignedSize(ts[0]);
      assert SumWeightedEntry(ts) == p * s + SumWeightedEntry(ts[1..]);
      assert p * (s + SumSignedSize(ts[1..])) == p * s + p * SumSignedSize(ts[1..]);
    }
  }

  /** With only long open trades of positive size, all entered within [lo, hi], the average is
      within [lo, hi]. */
  lemma WeightedAverageWithinEntries(ts: seq<Trade>, lo: real, hi: real)
    requires forall i :: 0 <= i < |ts| && IsOpen(ts[i]) ==>
      ts[i].tradeType == "Long" && ts[i].size > 0.0 && lo <= ts[i].entryPrice <= hi
    requires exists i :: 0 <= i < |ts| && IsOpen(ts[i])
    ensures lo <= WeightedAverage(ts) <= hi
  {
    OpenLongBounded(ts, lo, hi);
    var open := OpenTrades(ts);
    OpenNonEmpty(ts);
    BoundedWeightedEntry(open, lo, hi);
    RatioBetween(SumWeightedEntry(open), SumSignedSize(open), lo, hi);
  }

  lemma RatioBetween(a: real, b: real, lo: real, hi: real)
    requires b > 0.0 && lo * b <= a <= hi * b
    ensures lo <= Ratio(a, b) <= hi
  {
    var r := Ratio(a, b);
    if r < lo {
      ScaleMonotone(r, lo, b);
    }
    if r > hi {
      ScaleMonotone(hi, r, b);
    }
  }

  /** A long trade of positive size entered within [lo, hi]. */
  predicate LongWithin(t: Trade, lo: real, hi: real) {
    t.tradeType == "Long" && t.size > 0.0 && lo <= t.entryPrice <= hi
  }

  lemma {:induction false} OpenLongBounded(ts: seq<Trade>, lo: real, hi: real)
    requires forall i :: 0 <= i < |ts| && IsOpen(ts[i]) ==> LongWithin(ts[i], lo, hi)
    ensures forall i :: 0 <= i < |OpenTrades(ts)| ==> LongWithin(OpenTrades(ts)[i], lo, hi)
  {
    if |ts| > 0 {
      OpenLongBounded(ts[1..], lo, hi);
      var rest := OpenTrades(ts[1..]);
      if IsOpen(ts[0]) {
        var r := [ts[0]] + rest;
        assert forall i :: 1 <= i < |r| ==> r[i] == rest[i - 1];
      }
    }
  }

  lemma {:induction false} OpenNonEmpty(ts: seq<Trade>)
    requires exists i :: 0 <= i < |ts| && IsOpen(ts[i])
    ensures |OpenTrades(ts)| > 0
  {
    if !IsOpen(ts[0]) {
      var i :| 0 <= i < |ts| && IsOpen(ts[i]);
      assert IsOpen(ts[1..][i - 1]);
      OpenNonEmpty(ts[1..]);
    }
  }

  lemma {:induction false} BoundedWeightedEntry(ts: seq<Trade>, lo: real, hi: real)
    requires forall i :: 0 <= i < |ts| ==> LongWithin(ts[i], lo, hi)
    requires |ts| > 0
    ensures SumSignedSize(ts) > 0.0
    ensures lo * SumSignedSize(ts) <= SumWeightedEntry(ts) <= hi * SumSignedSize(ts)
  {
    var t := ts[0];
    assert LongWithin(t, lo, hi);
    var total, ws := 0.0, 0.0;
    if |ts| > 1 {
      assert forall i :: 0 <= i < |ts[1..]| ==> ts[1..][i] == ts[i + 1];
      BoundedWeightedEntry(ts[1..], lo, hi);
      total, ws := SumSignedSize(ts[1..]), SumWeightedEntry(ts[1..]);
    } else {
      assert ts[1..] == [];
    }
    assert SumSignedSize(ts) == t.size + total by { assert SignedSize(t) == t.size; }
    assert SumWeightedEntry(ts) == t.entryPrice * t.size + ws by { assert SignedSize(t) == t.size; }
    CombineBounds(lo, hi, t.entryPrice, t.size, ws, total);
  }

  /** Adding one trade of positive size `s` entered at `e` within [lo, hi] keeps the weighted
      sum between `lo` and `hi` times the total size. */
  lemma CombineBounds(lo: real, hi: real, e: real, s: real, ws: real, total: real)
    requires lo <= e <= hi && s > 0.0 && total >= 0.0
    requires lo * total <= ws <= hi * total
    ensures s + total > 0.0
    ensures lo * (s + total) <= e * s + ws <= hi * (s + total)
  {
    ScaleMonotone(lo, e, s);
    ScaleMonotone(e, hi, s);
    assert lo * (s + total) == lo * s + lo * total;
    assert hi * (s + total) == hi * s + hi * total;
  }

  /** Take-profit and stop-loss prices, before rounding to five decimals. */
  datatype Targets = Targets(tp: real, sl: real)

  /** Places the take-profit `tpPips` pips in the trade's favour and the stop-loss `slPips` pips
      against it; any type other than "Long" is treated as short. */
  function TpSl(entry: real, tradeType: string, tpPips: real, slPips: real): (r: Targets)
    ensures tpPips > 0.0 && slPips > 0.0 && tradeType == "Long" ==> r.sl < entry < r.tp
    ensures tpPips > 0.0 && slPips > 0.0 && tradeType != "Long" ==> r.tp < entry < r.sl
    ensures (r.tp - entry) * Direction(tradeType) == tpPips * PipSize
    ensures (entry - r.sl) * Direction(tradeType) == slPips * PipSize
  {
    if tradeType == "Long" then
      Targets(entry + tpPips * PipSize, entry - slPips * PipSize)
    else
      Targets(entry - tpPips * PipSize, entry + slPips * PipSize)
  }

  /** Long and short targets are reflections of each other about the entry price. */
  lemma TpSlMirror(entry: real, tpPips: real, slPips: real)
    ensures var l := TpSl(entry, "Long", tpPips, slPips);
      var s := TpSl(entry, "Short", tpPips, slPips);
      l.tp - entry == entry - s.tp && l.sl - entry == entry - s.sl
  {
  }

  /** A trade group's summary. */
  datatype GroupStats = GroupStats(
    totalSize: real,
    weightedAvgPrice: real,
    netDirection: string,
    realizedPnL: real,
    unrealizedPnL: real,
    totalPnL: real,
    avgEntryPrice: real,
    avgClosePrice: real,
    totalSizeEntered: real,
    status: string,
    initialDirection: string)

  /** Recomputes a group's summary from its trades, marking open trades at `currentPrice`. */
  function UpdateGroupStats(trades: seq<Trade>, currentPrice: real): (r: GroupStats)
    requires ClosedHavePrices(trades)
    ensures r.totalSize == SumSignedSize(OpenTrades(trades))
    ensures r.netDirection == "Long" <==> r.totalSize > 0.0
    ensures r.netDirection == "Short" <==> r.totalSize < 0.0
    ensures r.netDirection == "Flat" <==> r.totalSize == 0.0
    ensures r.status == "Closed" <==> r.totalSize == 0.0
    ensures r.status == "Open" <==> r.totalSize != 0.0
    ensures r.status == "Closed" <==> r.netDirection == "Flat"
    ensures r.totalPnL == r.realizedPnL + r.unrealizedPnL
    ensures r.totalSizeEntered == SumSize(trades)
  {
    var open := OpenTrades(trades);
    var totalSize := SumSignedSize(open);
    var realized := SumRealized(trades);
    var unrealized := SumPnlAt(open, currentPrice);
    var longs := OfType(trades, "Long");
    var shorts := OfType(trades, "Short");
    GroupStats(
      totalSize,
      WeightedAverage(open),
      if totalSize > 0.0 then "Long" else if totalSize < 0.0 then "Short" else "Flat",
      realized,
      unrealized,
      realized + unrealized,
      if |longs| > 0 then WeightedAverage(longs) else 0.0,
      if |shorts| > 0 then WeightedAverage(shorts) else 0.0,
      SumSize(trades),
      if totalSize == 0.0 then "Closed" else "Open",
      if |trades| > 0 then trades[0].tradeType else "Flat")
  }

  /** The group's weighted average price is the weighted average over all of its trades, which
      only the open ones affect. */
  lemma GroupAverageCoversOpen(trades: seq<Trade>, currentPrice: real)
    requires ClosedHavePrices(trades)
    ensures UpdateGroupStats(trades, currentPrice).weightedAvgPrice == WeightedAverage(trades)
  {
    WeightedAverageOnlyOpen(trades);
  }

  /** Adding one trade to a group adds its profit at its close price to the realized profit when it
      is closed, and its profit at the current price to the unrealized profit when it is open;
      otherwise those totals are unchanged. */
  lemma ProfitAppendStep(ts: seq<Trade>, t: Trade, currentPrice: real)
    requires ClosedHavePrices(ts) && (IsClosed(t) ==> t.closePrice.Some?)
    ensures ClosedHavePrices(ts + [t])
    ensures UpdateGroupStats(ts + [t], currentPrice).realizedPnL
        == UpdateGroupStats(ts, currentPrice).realizedPnL
           + (if IsClosed(t) then Pnl(t.entryPrice, t.closePrice.value, t.tradeType, t.size) else 0.0)
    ensures UpdateGroupStats(ts + [t], currentPrice).unrealizedPnL
        == UpdateGroupStats(ts, currentPrice).unrealizedPnL
           + (if IsOpen(t) then Pnl(t.entryPrice, currentPrice, t.tradeType, t.size) else 0.0)
  {
    assert ClosedHavePrices([t]);
    ClosedHavePricesConcat(ts, [t]);
    SumRealizedConcat(ts, [t]);
    assert [t][1..] == [];
    assert SumRealized([t]) == (if IsClosed(t) then Pnl(t.entryPrice, t.closePrice.value, t.tradeType, t.size) else 0.0);
    OpenTradesConcat(ts, [t]);
    OpenTradesSingle(t);
    SumPnlAtConcat(OpenTrades(ts), OpenTrades([t]), currentPrice);
    assert SumPnlAt(OpenTrades([t]), currentPrice)
        == (if IsOpen(t) then Pnl(t.entryPrice, currentPrice, t.tradeType, t.size) else 0.0);
  }

  /** Every closed trade of a concatenation carries a price when every closed trade of each part does. */
  lemma ClosedHavePricesConcat(a: seq<Trade>, b: seq<Trade>)
    requires ClosedHavePrices(a) && ClosedHavePrices(b)
    ensures ClosedHavePrices(a + b)
  {
    forall i | 0 <= i < |a + b| && IsClosed((a + b)[i])
      ensures (a + b)[i].closePrice.Some?
    {
      if i >= |a| {
        assert (a + b)[i] == b[i - |a|];
      }
    }
  }

  /** Dropping the first trade keeps every closed trade priced. */
  lemma ClosedHavePricesTail(ts: seq<Trade>)
    requires |ts| > 0 && ClosedHavePrices(ts)
    ensures ClosedHavePrices(ts[1..])
  {
    forall i | 0 <= i < |ts[1..]| && IsClosed(ts[1..][i])
      ensures ts[1..][i].closePrice.Some?
    {
      assert ts[1..][i] == ts[i + 1];
    }
  }

  /** Realized profit adds up over a concatenation. */
  lemma {:induction false} SumRealizedConcat(a: seq<Trade>, b: seq<Trade>)
    requires ClosedHavePrices(a) && ClosedHavePrices(b)
    ensures ClosedHavePrices(a + b)
    ensures SumRealized(a + b) == SumRealized(a) + SumRealized(b)
  {
    ClosedHavePricesConcat(a, b);
    if |a| == 0 {
      assert a + b == b;
    } else {
      ClosedHavePricesTail(a);
      assert (a + b)[1..] == a[1..] + b;
      SumRealizedConcat(a[1..], b);
    }
  }

  /** Profit marked at one price adds up over a concatenation. */
  lemma {:induction false} SumPnlAtConcat(a: seq<Trade>, b: seq<Trade>, price: real)
    ensures SumPnlAt(a + b, price) == SumPnlAt(a, price) + SumPnlAt(b, price)
  {
    if |a| == 0 {
      assert a + b == b;
    } else {
      assert (a + b)[1..] == a[1..] + b;
      SumPnlAtConcat(a[1..], b, price);
    }
  }

  /** The average entry price depends only on the open trades typed exactly "Long": closed longs,
      and trades of any other type, leave it unchanged; with no open long it is 0. */
  lemma AvgEntryOnlyOpenLongs(trades: seq<Trade>, currentPrice: real)
    requires ClosedHavePrices(trades)
    ensures UpdateGroupStats(trades, currentPrice).avgEntryPrice
        == WeightedAverage(OpenTrades(OfType(trades, "Long")))
  {
    WeightedAverageOnlyOpen(OfType(trades, "Long"));
  }

  /** The average "close" price depends only on the open trades typed exactly "Short": closed
      shorts, and trades of any other type, leave it unchanged; with no open short it is 0. */
  lemma AvgCloseOnlyOpenShorts(trades: seq<Trade>, currentPrice: real)
    requires ClosedHavePrices(trades)
    ensures UpdateGroupStats(trades, currentPrice).avgClosePrice
        == WeightedAverage(OpenTrades(OfType(trades, "Short")))
  {
    WeightedAverageOnlyOpen(OfType(trades, "Short"));
  }

  /** The initial direction is fixed by the group's first trade: trades added later never change
      it, and a group with no trades is "Flat". */
  lemma InitialDirectionStable(ts: seq<Trade>, more: seq<Trade>, currentPrice: real)
    requires ClosedHavePrices(ts) && ClosedHavePrices(more)
    ensures ClosedHavePrices(ts + more)
    ensures UpdateGroupStats([], currentPrice).initialDirection == "Flat"
    ensures |ts| > 0 ==>
      (UpdateGroupStats(ts + more, currentPrice).initialDirection
         == UpdateGroupStats(ts, currentPrice).initialDirection == ts[0].tradeType)
  {
    ClosedHavePricesConcat(ts, more);
    if |ts| > 0 {
      assert (ts + more)[0] == ts[0];
    }
  }

  /** What one trade adds to a group's total profit: a closed trade at its close price, an open
      trade at the current price, anything else nothing. */
  function Contribution(t: Trade, currentPrice: real): real
    requires IsClosed(t) ==> t.closePrice.Some?
  {
    if IsClosed(t) then Pnl(t.entryPrice, t.closePrice.value, t.tradeType, t.size)
    else if IsOpen(t) then Pnl(t.entryPrice, currentPrice, t.tradeType, t.size)
    else 0.0
  }

  function SumContribution(ts: seq<Trade>, currentPrice: real): real
    requires ClosedHavePrices(ts)
  {
    if |ts| == 0 then 0.0 else Contribution(ts[0], currentPrice) + SumContribution(ts[1..], currentPrice)
  }

  /** The group's total profit is the sum, trade by trade, of what each trade contributes. */
  lemma TotalPnLPerTrade(trades: seq<Trade>, currentPrice: real)
    requires ClosedHavePrices(trades)
    ensures UpdateGroupStats(trades, currentPrice).totalPnL == SumContribution(trades, currentPrice)
  {
    RealizedPlusUnrealized(trades, currentPrice);
  }

  lemma {:induction false} RealizedPlusUnrealized(ts: seq<Trade>, currentPrice: real)
    requires ClosedHavePrices(ts)
    ensures SumRealized(ts) + SumPnlAt(OpenTrades(ts), currentPrice) == SumContribution(ts, currentPrice)
  {
    if |ts| > 0 {
      ClosedHavePricesTail(ts);
      RealizedPlusUnrealized(ts[1..], currentPrice);
      var rest := OpenTrades(ts[1..]);
      if IsOpen(ts[0]) {
        assert ([ts[0]] + rest)[1..] == rest;
        assert !IsClosed(ts[0]);
      } else {
        assert OpenTrades(ts) == rest;
      }
    }
  }

  /** With non-negative sizes, the net open size never exceeds the total size entered. */
  lemma NetSizeWithinEntered(trades: seq<Trade>, currentPrice: real)
    requires ClosedHavePrices(trades)
    requires forall i :: 0 <= i < |trades| ==> trades[i].size >= 0.0
    ensures var r := UpdateGroupStats(trades, currentPrice);
      -r.totalSizeEntered <= r.totalSize <= r.totalSizeEntered
  {
    OpenSizeWithin(trades);
  }

  lemma {:induction false} OpenSizeWithin(ts: seq<Trade>)
    requires forall i :: 0 <= i < |ts| ==> ts[i].size >= 0.0
    ensures -SumSize(ts) <= SumSignedSize(OpenTrades(ts)) <= SumSize(ts)
  {
    if |ts| > 0 {
      assert forall i :: 0 <= i < |ts[1..]| ==> ts[1..][i].size >= 0.0 by {
        forall i | 0 <= i < |ts[1..]|
          ensures ts[1..][i].size >= 0.0
        {
          assert ts[1..][i] == ts[i + 1];
        }
      }
      OpenSizeWithin(ts[1..]);
      var rest := OpenTrades(ts[1..]);
      if IsOpen(ts[0]) {
        assert ([ts[0]] + rest)[1..] == rest;
      } else {
        assert OpenTrades(ts) == rest;
      }
    }
  }

  /** A group with no open trade is flat and closed, with nothing unrealized. */
  lemma NoOpenTradesIsClosed(trades: seq<Trade>, currentPrice: real)
    requires ClosedHavePrices(trades)
    requires forall i :: 0 <= i < |trades| ==> !IsOpen(trades[i])
    ensures var r := UpdateGroupStats(trades, currentPrice);
      && r.status == "Closed" && r.netDirection == "Flat"
      && r.unrealizedPnL == 0.0 && r.weightedAvgPrice == 0.0
      && r.totalPnL == r.realizedPnL
  {
    NoOpenTrades(trades);
  }

  lemma {:induction false} NoOpenTrades(ts: seq<Trade>)
    requires forall i :: 0 <= i < |ts| ==> !IsOpen(ts[i])
    ensures OpenTrades(ts) == []
  {
    if |ts| > 0 {
      assert forall i :: 0 <= i < |ts[1..]| ==> !IsOpen(ts[1..][i]) by {
        forall i | 0 <= i < |ts[1..]|
          ensures !IsOpen(ts[1..][i])
        {
          assert ts[1..][i] == ts[i + 1];
        }
      }
      NoOpenTrades(ts[1..]);
    }
  }
}

=== FILE: detector.dfy ===
/** The detector's orchestration: configuration, historical load in chunks, incremental
    processing behind a cursor, and the cadence of the two consolidation passes. */
module Detector {
  import opened Wrappers
  import opened Bars
  import opened Levels
  import opened Scan

  /** The detector's configuration. Bandwidth, eps and min_samples only feed the
      consolidation passes, whose bodies are not part of this model. */
  datatype Params = Params(
    window: int,
    touchThreshold: real,
    kdeBandwidth: real,
    eps: real,
    minSamples: int,
    dbscanInterval: int,
    kdeInterval: int)
  {
    /** A positive window, and cadences that can be used as a modulus. */
    predicate Valid() {
      window >= 1 && dbscanInterval != 0 && kdeInterval != 0
    }
  }

  const DefaultParams: Params := Params(20, 0.001, 0.01, 0.01, 3, 100, 500)

  /** The default configuration is usable, and a detector built from it starts valid. */
  lemma DefaultsValid()
    ensures DefaultParams.Valid() && New(DefaultParams).Valid()
    ensures DefaultParams.window == 20 && DefaultParams.dbscanInterval == 100 && DefaultParams.kdeInterval == 500
  {
  }

  /** The historical load processes the series in chunks of this many bars. */
  const ChunkSize: nat := 1000

  /** A consolidation pass that fired after processing up to bar count `end`. */
  datatype Pass = Dbscan(end: nat) | Kde(end: nat)

  /** Why a call raised instead of returning tables. */
  datatype Error = NoFrame

  /** The detector's state: `frame` is None until data has been supplied. */
  datatype Detector = Detector(
    params: Params,
    frame: Option<seq<Bar>>,
    tables: Tables,
    cursor: nat,
    passes: seq<Pass>)
  {
    /** The cursor lies within the series, and every level has been touched. */
    ghost predicate Valid() {
      && params.Valid()
      && (frame.None? ==> cursor == 0)
      && (frame.Some? ==> cursor <= |frame.value|)
      && WellFormed(tables.support)
      && WellFormed(tables.resistance)
    }
  }

  /** A fresh detector: no data, empty tables, cursor at zero, no pass run. */
  function New(params: Params): (d: Detector)
    requires params.Valid()
    ensures d.Valid()
    ensures d.frame.None? && d.cursor == 0 && d.passes == []
    ensures d.tables.support == map[] && d.tables.resistance == map[]
  {
    Detector(params, None, NoTables, 0, [])
  }

  /** Python's `%`, whose result takes the sign of the divisor. */
  function PyMod(a: int, b: int): (r: int)
    requires b != 0
    ensures b > 0 ==> 0 <= r < b
    ensures b < 0 ==> b < r <= 0
  {
    if b > 0 || a % b == 0 then a % b else a % b + b
  }

  /** For any non-zero divisor, Python's `%` is zero exactly when Dafny's is. */
  lemma PyModZero(a: int, b: int)
    requires b != 0
    ensures PyMod(a, b) == 0 <==> a % b == 0
  {
  }

  /** The passes due once `end` bars have been processed: clustering first, then smoothing. */
  function Triggers(p: Params, end: nat): (r: seq<Pass>)
    requires p.Valid()
    ensures Dbscan(end) in r <==> end % p.dbscanInterval == 0
    ensures Kde(end) in r <==> end % p.kdeInterval == 0
    ensures forall q :: q in r ==> q.end == end
    ensures |r| <= 2
  {
    PyModZero(end, p.dbscanInterval);
    PyModZero(end, p.kdeInterval);
    (if PyMod(end, p.dbscanInterval) == 0 then [Dbscan(end)] else [])
      + (if PyMod(end, p.kdeInterval) == 0 then [Kde(end)] else [])
  }

  /** A half-open range `start .. end-1` of bar positions. */
  datatype Chunk = Chunk(start: nat, end: nat)

  function Min(a: int, b: int): int {
    if a <= b then a else b
  }

  /** The chunks `[s, min(s + ChunkSize, n))` for `s` = `from`, `from + ChunkSize`, ... below `n`. */
  function ChunksFrom(from: nat, n: nat): (r: seq<Chunk>)
    ensures from < n ==> |r| > 0 && r[0].start == from && r[|r| - 1].end == n
    ensures from >= n ==> r == []
    ensures forall k :: 0 <= k < |r| ==>
      from <= r[k].start < r[k].end <= n && r[k].end - r[k].start <= ChunkSize
    ensures forall k :: 0 <= k < |r| - 1 ==> r[k].end == r[k + 1].start
    decreases n - from
  {
    if from >= n then []
    else [Chunk(from, Min(from + ChunkSize, n))] + ChunksFrom(from + ChunkSize, n)
  }

  /** The `k`-th chunk from `from` is `[from + k * ChunkSize, min(from + (k + 1) * ChunkSize, n))`. */
  lemma {:induction false} ChunkPositions(from: nat, n: nat)
    ensures forall k :: 0 <= k < |ChunksFrom(from, n)| ==>
      && ChunksFrom(from, n)[k].start == from + k * ChunkSize
      && ChunksFrom(from, n)[k].end == Min(from + (k + 1) * ChunkSize, n)
    decreases n - from
  {
    if from < n {
      var r := ChunksFrom(from, n);
      var rest := ChunksFrom(from + ChunkSize, n);
      ChunkPositions(from + ChunkSize, n);
      assert r == [Chunk(from, Min(from + ChunkSize, n))] + rest;
      forall k | 1 <= k < |r|
        ensures r[k].start == from + k * ChunkSize && r[k].end == Min(from + (k + 1) * ChunkSize, n)
      {
        assert r[k] == rest[k - 1];
      }
    }
  }

  /** The chunks of a historical load of `n` bars. */
  function Chunks(n: nat): seq<Chunk> {
    ChunksFrom(0, n)
  }

  /** Position `i` lies in chunk `c`. */
  predicate Covers(c: Chunk, i: int) {
    c.start <= i < c.end
  }

  /** Some chunk of `r` covers position `i`. */
  predicate InSomeChunk(r: seq<Chunk>, i: int) {
    exists k :: 0 <= k < |r| && Covers(r[k], i)
  }

  /** The chunks partition `0 .. n-1`: every position lies in exactly one chunk. */
  lemma {:induction false} ChunksPartition(n: nat)
    ensures forall i :: 0 <= i < n ==> InSomeChunk(Chunks(n), i)
    ensures forall k, l, i ::
      (0 <= k < |Chunks(n)| && 0 <= l < |Chunks(n)| && Covers(Chunks(n)[k], i) && Covers(Chunks(n)[l], i)) ==> k == l
  {
    var r := Chunks(n);
    ChunksOrdered(r, 0, n);
    forall i | 0 <= i < n
      ensures InSomeChunk(r, i)
    {
      ChunkContaining(r, 0, n, i);
    }
  }

  /** In a contiguous run of chunks each chunk ends no later than any later chunk starts. */
  lemma {:induction false} ChunksOrdered(r: seq<Chunk>, from: nat, n: nat)
    requires r == ChunksFrom(from, n)
    ensures forall k, l :: 0 <= k < l < |r| ==> r[k].end <= r[l].start
    decreases |r|
  {
    if |r| > 1 {
      ChunksOrdered(r[1..], from + ChunkSize, n);
      forall k, l | 0 <= k < l < |r|
        ensures r[k].end <= r[l].start
      {
        if k == 0 {
          assert r[l] == r[1..][l - 1];
        } else {
          assert r[k] == r[1..][k - 1] && r[l] == r[1..][l - 1];
        }
      }
    }
  }

  /** A position inside `from .. n-1` is covered by some chunk. */
  lemma {:induction false} ChunkContaining(r: seq<Chunk>, from: nat, n: nat, i: nat)
    requires r == ChunksFrom(from, n)
    requires from <= i < n
    ensures InSomeChunk(r, i)
    decreases |r|
  {
    var first := Chunk(from, Min(from + ChunkSize, n));
    var rest := ChunksFrom(from + ChunkSize, n);
    assert r == [first] + rest;
    if i >= first.end {
      assert from + ChunkSize <= i;
      assert r[1..] == rest;
      ChunkContaining(rest, from + ChunkSize, n, i);
      var k :| 0 <= k < |rest| && Covers(rest[k], i);
      assert r[k + 1] == rest[k];
    } else {
      assert Covers(r[0], i);
    }
  }

  /** Some chunk of `chunks` ends at `e`. */
  predicate EndsAt(chunks: seq<Chunk>, e: int) {
    exists k :: 0 <= k < |chunks| && chunks[k].end == e
  }

  /** A chunk list ends at `e` exactly when its first chunk or one of the rest does. */
  lemma EndsAtCons(chunks: seq<Chunk>, e: int)
    requires |chunks| > 0
    ensures EndsAt(chunks, e) <==> chunks[0].end == e || EndsAt(chunks[1..], e)
  {
    if EndsAt(chunks, e) {
      var k :| 0 <= k < |chunks| && chunks[k].end == e;
      if k > 0 {
        assert chunks[1..][k - 1].end == e;
      }
    }
    if EndsAt(chunks[1..], e) {
      var k :| 0 <= k < |chunks[1..]| && chunks[1..][k].end == e;
      assert chunks[k + 1].end == e;
    }
  }

  /** The chunks from `from` end at every `ChunkSize`-th position after `from` up to `n`, and at `n`. */
  lemma {:induction false} EndsAtFrom(from: nat, n: nat, e: int)
    ensures EndsAt(ChunksFrom(from, n), e) <==> from < e <= n && ((e - from) % ChunkSize == 0 || e == n)
    decreases n - from
  {
    var r := ChunksFrom(from, n);
    if from < n {
      var m := from + ChunkSize;
      EndsAtCons(r, e);
      assert r[0].end == Min(m, n);
      assert r[1..] == ChunksFrom(m, n);
      EndsAtFrom(m, n, e);
      if e <= from {
      } else if e < m {
        SmallRemainder(e - from);
      } else if e == m {
      } else {
        ShiftedRemainder(e - from);
      }
    } else {
      assert r == [];
    }
  }

  /** A positive offset below the chunk size is not a multiple of it. */
  lemma SmallRemainder(x: int)
    requires 0 < x < ChunkSize
    ensures x % ChunkSize == x
  {
  }

  /** Removing one chunk size leaves the remainder unchanged. */
  lemma ShiftedRemainder(x: int)
    ensures (x - ChunkSize) % ChunkSize == x % ChunkSize
  {
  }

  /** A historical load of `n` bars has a chunk ending at `e` exactly when `e` is a positive
      multiple of the chunk size up to `n`, or `n` itself. */
  lemma ChunkEnds(n: nat, e: int)
    ensures EndsAt(Chunks(n), e) <==> 0 < e <= n && (e % ChunkSize == 0 || e == n)
  {
    EndsAtFrom(0, n, e);
  }

  /** The state a historical load threads through its chunks. */
  datatype LoadState = LoadState(tables: Tables, passes: seq<Pass>)

  /** Runs the chunks in order over the whole series `df`: a scan of each chunk, then the passes
      due at the chunk's end. */
  function LoadChunks(p: Params, df: seq<Bar>, chunks: seq<Chunk>, s: LoadState): (r: LoadState)
    requires p.Valid()
    ensures r.tables.support.Keys >= s.tables.support.Keys
    ensures r.tables.resistance.Keys >= s.tables.resistance.Keys
    ensures WellFormed(s.tables.support) ==> WellFormed(r.tables.support)
    ensures WellFormed(s.tables.resistance) ==> WellFormed(r.tables.resistance)
    ensures (forall k :: 0 <= k < |chunks| ==> chunks[k].end - chunks[k].start < p.window) ==> r.tables == s.tables
    ensures |r.passes| >= |s.passes| && r.passes[..|s.passes|] == s.passes
    ensures forall e: nat :: Dbscan(e) in r.passes[|s.passes|..] <==>
      (e % p.dbscanInterval == 0 && EndsAt(chunks, e))
    ensures forall e: nat :: Kde(e) in r.passes[|s.passes|..] <==>
      (e % p.kdeInterval == 0 && EndsAt(chunks, e))
    decreases |chunks|
  {
    if |chunks| == 0 then s
    else
      var c := chunks[0];
      var tables := VectorizedProcess(p.window, p.touchThreshold, df, c.start, c.end, s.tables);
      var s' := LoadState(tables, s.passes + Triggers(p, c.end));
      var r := LoadChunks(p, df, chunks[1..], s');
      LoadChunksPasses(p, chunks, s, s', r);
      r
  }

  /** The log appended by a load is the passes of the first chunk followed by those of the rest. */
  lemma LoadChunksPasses(p: Params, chunks: seq<Chunk>, s: LoadState, s': LoadState, r: LoadState)
    requires p.Valid() && |chunks| > 0
    requires s'.passes == s.passes + Triggers(p, chunks[0].end)
    requires |r.passes| >= |s'.passes| && r.passes[..|s'.passes|] == s'.passes
    requires forall e: nat :: Dbscan(e) in r.passes[|s'.passes|..] <==>
      (e % p.dbscanInterval == 0 && EndsAt(chunks[1..], e))
    requires forall e: nat :: Kde(e) in r.passes[|s'.passes|..] <==>
      (e % p.kdeInterval == 0 && EndsAt(chunks[1..], e))
    ensures |r.passes| >= |s.passes| && r.passes[..|s.passes|] == s.passes
    ensures forall e: nat :: Dbscan(e) in r.passes[|s.passes|..] <==>
      (e % p.dbscanInterval == 0 && EndsAt(chunks, e))
    ensures forall e: nat :: Kde(e) in r.passes[|s.passes|..] <==>
      (e % p.kdeInterval == 0 && EndsAt(chunks, e))
  {
    var t := Triggers(p, chunks[0].end);
    var tail := r.passes[|s'.passes|..];
    assert r.passes[|s.passes|..] == t + tail by {
      assert r.passes[..|s'.passes|] == s.passes + t;
    }
    forall e: nat
      ensures EndsAt(chunks, e) <==> (e == chunks[0].end || EndsAt(chunks[1..], e))
    {
      EndsAtCons(chunks, e);
    }
  }

  /** Loads a historical series: it replaces the frame, runs every chunk, and moves the cursor to
      the end. The tables are kept from before and the cursor is not reset first. */
  function InitializeWithHistoricalData(d: Detector, hist: seq<Bar>): (r: Detector)
    requires d.Valid()
    ensures r.Valid()
    ensures r.frame == Some(hist) && r.cursor == |hist| && r.params == d.params
    ensures r.tables.support.Keys >= d.tables.support.Keys
    ensures r.tables.resistance.Keys >= d.tables.resistance.Keys
    ensures |hist| < d.params.window ==> r.tables == d.tables
    ensures |r.passes| >= |d.passes| && r.passes[..|d.passes|] == d.passes
    ensures forall e: nat :: Dbscan(e) in r.passes[|d.passes|..] <==>
      (e % d.params.dbscanInterval == 0 && EndsAt(Chunks(|hist|), e))
    ensures forall e: nat :: Kde(e) in r.passes[|d.passes|..] <==>
      (e % d.params.kdeInterval == 0 && EndsAt(Chunks(|hist|), e))
  {
    var s := LoadChunks(d.params, hist, Chunks(|hist|), LoadState(d.tables, d.passes));
    Detector(d.params, Some(hist), s.tables, |hist|, s.passes)
  }

  /** The levels a load can add on one side are prices of local extrema of the whole series, and
      when the first chunk is long enough to be scanned, all those at or after its start are added. */
  lemma {:induction false} LoadChunksKeys(p: Params, df: seq<Bar>, chunks: seq<Chunk>, s: LoadState, side: Side)
    requires p.Valid()
    ensures LoadChunks(p, df, chunks, s).tables.Of(side).Keys
        <= s.tables.Of(side).Keys + Prices(Candidates(side, df, p.window, 0))
    ensures |chunks| > 0 && chunks[0].end - chunks[0].start >= p.window ==>
      LoadChunks(p, df, chunks, s).tables.Of(side).Keys
        >= s.tables.Of(side).Keys + Prices(Candidates(side, df, p.window, chunks[0].start))
    decreases |chunks|
  {
    if |chunks| > 0 {
      var c := chunks[0];
      var tables := VectorizedProcess(p.window, p.touchThreshold, df, c.start, c.end, s.tables);
      var s' := LoadState(tables, s.passes + Triggers(p, c.end));
      assert LoadChunks(p, df, chunks, s) == LoadChunks(p, df, chunks[1..], s');
      LoadChunksKeys(p, df, chunks[1..], s', side);
      CandidatePricesShrink(side, df, p.window, 0, c.start);
    }
  }

  /** With a window no longer than a chunk and at least a window of history, a load adds to the
      old keys exactly the lows of the local minima and the highs of the local maxima of the whole
      history: the first chunk's scan has no upper bound, and later chunks re-scan a suffix. */
  lemma HistoricalLoadKeys(d: Detector, hist: seq<Bar>)
    requires d.Valid()
    requires d.params.window <= ChunkSize && d.params.window <= |hist|
    ensures var r := InitializeWithHistoricalData(d, hist);
      && (forall p :: p in r.tables.support <==>
            (p in d.tables.support || exists i :: 0 <= i < |hist| && IsExtremum(Support, hist, d.params.window, i) && hist[i].low == p))
      && (forall p :: p in r.tables.resistance <==>
            (p in d.tables.resistance || exists i :: 0 <= i < |hist| && IsExtremum(Resistance, hist, d.params.window, i) && hist[i].high == p))
  {
    var w := d.params.window;
    var chunks := Chunks(|hist|);
    var s := LoadState(d.tables, d.passes);
    assert chunks[0] == Chunk(0, Min(ChunkSize, |hist|));
    LoadChunksKeys(d.params, hist, chunks, s, Support);
    LoadChunksKeys(d.params, hist, chunks, s, Resistance);
    forall p
      ensures p in Prices(Candidates(Support, hist, w, 0))
          <==> exists i :: 0 <= i < |hist| && IsExtremum(Support, hist, w, i) && hist[i].low == p
    {
      CandidatePricesExact(Support, hist, w, 0, p);
    }
    forall p
      ensures p in Prices(Candidates(Resistance, hist, w, 0))
          <==> exists i :: 0 <= i < |hist| && IsExtremum(Resistance, hist, w, i) && hist[i].high == p
    {
      CandidatePricesExact(Resistance, hist, w, 0, p);
    }
  }

  /** A window longer than a chunk is never reached by any chunk, so a load records nothing. */
  lemma LongWindowLoadsNothing(d: Detector, hist: seq<Bar>)
    requires d.Valid() && d.params.window > ChunkSize
    ensures InitializeWithHistoricalData(d, hist).tables == d.tables
  {
  }

  /** The passes a load logs: a clustering (density) pass at every chunk end that is a multiple of
      its interval, where the chunk ends are the positive multiples of the chunk size up to the
      history's length, and that length itself. */
  lemma HistoricalPasses(d: Detector, hist: seq<Bar>)
    requires d.Valid()
    ensures var r := InitializeWithHistoricalData(d, hist);
      && (forall e: nat :: Dbscan(e) in r.passes[|d.passes|..] <==>
            (0 < e <= |hist| && (e % ChunkSize == 0 || e == |hist|) && e % d.params.dbscanInterval == 0))
      && (forall e: nat :: Kde(e) in r.passes[|d.passes|..] <==>
            (0 < e <= |hist| && (e % ChunkSize == 0 || e == |hist|) && e % d.params.kdeInterval == 0))
  {
    forall e: nat
      ensures EndsAt(Chunks(|hist|), e) <==> 0 < e <= |hist| && (e % ChunkSize == 0 || e == |hist|)
    {
      ChunkEnds(|hist|, e);
    }
  }

  /** Processes whatever lies beyond the cursor, after appending `newData` if given. Raises when
      there is neither a frame nor new data. */
  function IdentifyLevels(d: Detector, newData: Option<seq<Bar>>): (r: Result<Detector, Error>)
    requires d.Valid()
    ensures r.Failure? <==> d.frame.None? && newData.None?
    ensures r.Success? ==> && r.value.Valid()
                           && r.value.params == d.params
                           && r.value.frame.Some?
                           && r.value.frame.value == Appended(d.frame, newData)
                           && r.value.cursor == |r.value.frame.value|
                           && r.value.cursor >= d.cursor
                           && r.value.tables.support.Keys >= d.tables.support.Keys
                           && r.value.tables.resistance.Keys >= d.tables.resistance.Keys
    ensures r.Success? && |Appended(d.frame, newData)| > d.cursor ==>
      r.value.passes == d.passes + Triggers(d.params, |Appended(d.frame, newData)|)
    ensures r.Success? && |Appended(d.frame, newData)| <= d.cursor ==>
      r.value.passes == d.passes && r.value.tables == d.tables
  {
    if d.frame.None? && newData.None? then Failure(NoFrame)
    else
      var df := Appended(d.frame, newData);
      var start := d.cursor;
      var end := |df|;
      if end > start then
        var tables := VectorizedProcess(d.params.window, d.params.touchThreshold, df, start, end, d.tables);
        Success(Detector(d.params, Some(df), tables, end, d.passes + Triggers(d.params, end)))
      else
        Success(d.(frame := Some(df)))
  }

  /** The series after appending: a missing frame is dropped, as concatenation drops it. */
  function Appended(frame: Option<seq<Bar>>, newData: Option<seq<Bar>>): (r: seq<Bar>)
    ensures |r| == (if frame.Some? then |frame.value| else 0) + (if newData.Some? then |newData.value| else 0)
    ensures frame.Some? ==> r[..|frame.value|] == frame.value
    ensures newData.Some? ==> r[|r| - |newData.value|..] == newData.value
  {
    (if frame.Some? then frame.value else []) + (if newData.Some? then newData.value else [])
  }

  /** Calling again with no new data once everything is processed changes nothing: evidence is
      never counted twice. */
  lemma ReplayIsNoOp(d: Detector)
    requires d.Valid() && d.frame.Some? && d.cursor == |d.frame.value|
    ensures IdentifyLevels(d, None) == Success(d)
  {
    assert Appended(d.frame, None) == d.frame.value;
  }

  /** After a historical load, asking for levels with no new data is a no-op. */
  lemma ReplayAfterLoadIsNoOp(d: Detector, hist: seq<Bar>)
    requires d.Valid()
    ensures IdentifyLevels(InitializeWithHistoricalData(d, hist), None)
        == Success(InitializeWithHistoricalData(d, hist))
  {
    ReplayIsNoOp(InitializeWithHistoricalData(d, hist));
  }

  /** A batch of fewer new bars than the window is skipped by the scan, yet the cursor moves past
      it, so those bars are never scanned as the start of a range; the passes due at the new
      length are still logged. */
  lemma ShortBatchSkipped(d: Detector, newData: seq<Bar>)
    requires d.Valid()
    requires d.cursor == |Appended(d.frame, None)|
    requires 0 < |newData| < d.params.window
    ensures IdentifyLevels(d, Some(newData)).Success?
    ensures IdentifyLevels(d, Some(newData)).value.tables == d.tables
    ensures IdentifyLevels(d, Some(newData)).value.cursor == d.cursor + |newData|
    ensures IdentifyLevels(d, Some(newData)).value.passes
        == d.passes + Triggers(d.params, d.cursor + |newData|)
  {
  }

  /** Incremental processing of a long enough batch records exactly the local extrema at or after
      the old cursor, in the new series, on top of the old keys. */
  lemma IncrementalKeys(d: Detector, newData: Option<seq<Bar>>)
    requires d.Valid() && (d.frame.Some? || newData.Some?)
    requires var n := |Appended(d.frame, newData)|; n - d.cursor >= d.params.window
    ensures var df := Appended(d.frame, newData);
      var r := IdentifyLevels(d, newData).value;
      && (forall p :: p in r.tables.support <==>
            (p in d.tables.support || exists i :: d.cursor <= i < |df| && IsExtremum(Support, df, d.params.window, i) && df[i].low == p))
      && (forall p :: p in r.tables.resistance <==>
            (p in d.tables.resistance || exists i :: d.cursor <= i < |df| && IsExtremum(Resistance, df, d.params.window, i) && df[i].high == p))
  {
    var df := Appended(d.frame, newData);
    var w := d.params.window;
    forall p | p in Prices(Candidates(Support, df, w, d.cursor))
      ensures exists i :: d.cursor <= i < |df| && IsExtremum(Support, df, w, i) && df[i].low == p
    {
      CandidatePricesExact(Support, df, w, d.cursor, p);
    }
    forall p | p in Prices(Candidates(Resistance, df, w, d.cursor))
      ensures exists i :: d.cursor <= i < |df| && IsExtremum(Resistance, df, w, i) && df[i].high == p
    {
      CandidatePricesExact(Resistance, df, w, d.cursor, p);
    }
    forall i | d.cursor <= i < |df| && IsExtremum(Support, df, w, i)
      ensures df[i].low in Prices(Candidates(Support, df, w, d.cursor))
    {
      CandidatePricesExact(Support, df, w, d.cursor, df[i].low);
    }
    forall i | d.cursor <= i < |df| && IsExtremum(Resistance, df, w, i)
      ensures df[i].high in Prices(Candidates(Resistance, df, w, d.cursor))
    {
      CandidatePricesExact(Resistance, df, w, d.cursor, df[i].high);
    }
  }

  /** Loading history and then feeding further bars leaves the cursor at the end of the whole series. */
  lemma LoadThenFeedCursor(d: Detector, hist: seq<Bar>, more: seq<Bar>)
    requires d.Valid()
    ensures var r := IdentifyLevels(InitializeWithHistoricalData(d, hist), Some(more));
      r.Success? && r.value.cursor == |hist| + |more| && r.value.frame == Some(hist + more)
  {
  }
}

=== FILE: levels.dfy ===
/** The evidence tracker: per-price touch/break counts updated by extremum candidates. */
module Levels {
  import opened Bars

  /** Evidence recorded for one price level. */
  datatype Level = Level(touches: nat, breaks: nat, lastTouch: nat)

  /** A level table keyed by exact price. */
  type Table = map<real, Level>

  /** The detector's two tables. */
  datatype Tables = Tables(support: Table, resistance: Table)
  {
    /** The table that records levels of `side`. */
    function Of(side: Side): Table {
      if side.Support? then support else resistance
    }
  }

  const NoTables: Tables := Tables(map[], map[])

  /** How one close is judged against an existing level. */
  datatype Evidence = Break | Touch | NoChange

  /** Every recorded level has been touched at least once. */
  ghost predicate WellFormed(t: Table) {
    forall p :: p in t ==> t[p].touches >= 1
  }

  /** Every recorded last touch points at a bar before position `n`. */
  ghost predicate TouchesBefore(t: Table, n: nat) {
    forall p :: p in t ==> t[p].lastTouch < n
  }

  /** Evidence at a level never decreases from `a` to `b`. */
  predicate Accumulates(a: Level, b: Level) {
    a.touches <= b.touches && a.breaks <= b.breaks
  }

  /** The lower edge of the support band and the upper edge of the resistance band. */
  function BandEdge(side: Side, price: real, threshold: real): real {
    if side.Support? then price * (1.0 - threshold) else price * (1.0 + threshold)
  }

  /** Judges the bar's close against a level at `price` with fractional tolerance `threshold`. */
  function Classify(side: Side, price: real, threshold: real, close: real): Evidence {
    var edge := BandEdge(side, price, threshold);
    match side
    case Support =>
      if close < edge then Break
      else if edge <= close <= price then Touch
      else NoChange
    case Resistance =>
      if close > edge then Break
      else if price <= close <= edge then Touch
      else NoChange
  }

  /** The support rule read as three regions of the close. With a non-negative price and
      threshold the regions are below the band, inside it, and above the level. */
  lemma SupportBands(price: real, threshold: real, close: real)
    ensures Classify(Support, price, threshold, close) == Break <==> close < price * (1.0 - threshold)
    ensures Classify(Support, price, threshold, close) == Touch
        <==> price * (1.0 - threshold) <= close <= price
    ensures price >= 0.0 && threshold >= 0.0 ==>
        (Classify(Support, price, threshold, close) == NoChange <==> close > price)
  {
    if price >= 0.0 && threshold >= 0.0 {
      assert price * threshold >= 0.0;
      assert price * (1.0 - threshold) <= price;
    }
  }

  /** The resistance rule read as three regions of the close. */
  lemma ResistanceBands(price: real, threshold: real, close: real)
    ensures Classify(Resistance, price, threshold, close) == Break <==> close > price * (1.0 + threshold)
    ensures Classify(Resistance, price, threshold, close) == Touch
        <==> price <= close <= price * (1.0 + threshold)
    ensures price >= 0.0 && threshold >= 0.0 ==>
        (Classify(Resistance, price, threshold, close) == NoChange <==> close < price)
  {
    if price >= 0.0 && threshold >= 0.0 {
      assert price * threshold >= 0.0;
      assert price * (1.0 + threshold) >= price;
    }
  }

  /** Resistance is the mirror of support: negating the price, the threshold and the close
      turns one rule into the other. */
  lemma ResistanceMirrorsSupport(price: real, threshold: real, close: real)
    ensures Classify(Resistance, price, threshold, close) == Classify(Support, -price, -threshold, -close)
  {
    assert BandEdge(Support, -price, -threshold) == -BandEdge(Resistance, price, threshold);
  }

  /** A support level at 1.1000 with threshold 0.001: a close of 1.0995 touches it, 1.0985
      breaks it, 1.1050 leaves it alone. */
  lemma SupportExample()
    ensures Classify(Support, 1.1, 0.001, 1.0995) == Touch
    ensures Classify(Support, 1.1, 0.001, 1.0985) == Break
    ensures Classify(Support, 1.1, 0.001, 1.105) == NoChange
  {
    assert BandEdge(Support, 1.1, 0.001) == 1.0989;
  }

  /** Records one candidate of bar `index` at `price` in `t`, judging with the bar's `close`. */
  function ApplyCandidate(t: Table, side: Side, threshold: real, index: nat, price: real, close: real): (r: Table)
    ensures r.Keys == t.Keys + {price}
    ensures forall p :: p in t && p != price ==> r[p] == t[p]
    ensures price !in t ==> r[price] == Level(1, 0, index)
    ensures price in t ==> Accumulates(t[price], r[price])
    ensures price in t ==> r[price].touches + r[price].breaks <= t[price].touches + t[price].breaks + 1
    ensures WellFormed(t) ==> WellFormed(r)
    ensures forall n: nat :: TouchesBefore(t, n) && index < n ==> TouchesBefore(r, n)
  {
    if price !in t then
      t[price := Level(1, 0, index)]
    else
      var l := t[price];
      match Classify(side, price, threshold, close)
      case Break => t[price := l.(breaks := l.breaks + 1)]
      case Touch => t[price := l.(touches := l.touches + 1, lastTouch := index)]
      case NoChange => t
  }

  /** The effect on an existing support level, stated on the close. */
  lemma ExistingSupportUpdate(t: Table, threshold: real, index: nat, price: real, close: real)
    requires price in t
    ensures var r := ApplyCandidate(t, Support, threshold, index, price, close);
      && (close < price * (1.0 - threshold) ==> r[price] == t[price].(breaks := t[price].breaks + 1))
      && (price * (1.0 - threshold) <= close <= price ==>
            r[price] == t[price].(touches := t[price].touches + 1, lastTouch := index))
      && (close > price && close >= price * (1.0 - threshold) ==> r == t)
  {
    SupportBands(price, threshold, close);
  }

  /** The effect on an existing resistance level, stated on the close. */
  lemma ExistingResistanceUpdate(t: Table, threshold: real, index: nat, price: real, close: real)
    requires price in t
    ensures var r := ApplyCandidate(t, Resistance, threshold, index, price, close);
      && (close > price * (1.0 + threshold) ==> r[price] == t[price].(breaks := t[price].breaks + 1))
      && (price <= close <= price * (1.0 + threshold) ==>
            r[price] == t[price].(touches := t[price].touches + 1, lastTouch := index))
      && (close < price && close <= price * (1.0 + threshold) ==> r == t)
  {
    ResistanceBands(price, threshold, close);
  }

  /** All candidates point at bars of a series of length `n`. */
  predicate InSeries(cs: seq<Candidate>, n: nat) {
    forall k :: 0 <= k < |cs| ==> cs[k].index < n
  }

  /** Records the candidates one after the other, in list order, judging each against the close
      of its own bar. */
  function ProcessLevels(t: Table, side: Side, threshold: real, df: seq<Bar>, cs: seq<Candidate>): (r: Table)
    requires InSeries(cs, |df|)
    ensures r.Keys == t.Keys + Prices(cs)
    ensures forall p :: p in t && p !in Prices(cs) ==> r[p] == t[p]
    ensures forall p :: p in t ==> Accumulates(t[p], r[p])
    ensures WellFormed(t) ==> WellFormed(r)
    ensures TouchesBefore(t, |df|) ==> TouchesBefore(r, |df|)
    decreases |cs|
  {
    if |cs| == 0 then t
    else
      var c := cs[0];
      ProcessLevels(ApplyCandidate(t, side, threshold, c.index, c.price, df[c.index].close), side, threshold, df, cs[1..])
  }

  /** Recording `a + b` is recording `a`, then recording `b` on the result: candidates are applied
      one at a time, in list order, each to the table its predecessors left. */
  lemma {:induction false} ProcessLevelsConcat(t: Table, side: Side, threshold: real, df: seq<Bar>, a: seq<Candidate>, b: seq<Candidate>)
    requires InSeries(a, |df|) && InSeries(b, |df|)
    ensures InSeries(a + b, |df|)
    ensures ProcessLevels(t, side, threshold, df, a + b)
        == ProcessLevels(ProcessLevels(t, side, threshold, df, a), side, threshold, df, b)
    decreases |a|
  {
    assert InSeries(a + b, |df|) by {
      forall k | 0 <= k < |a + b|
        ensures (a + b)[k].index < |df|
      {
        if k >= |a| {
          assert (a + b)[k] == b[k - |a|];
        }
      }
    }
    if |a| == 0 {
      assert a + b == b;
    } else {
      var c := a[0];
      var t' := ApplyCandidate(t, side, threshold, c.index, c.price, df[c.index].close);
      assert (a + b)[0] == c;
      assert (a + b)[1..] == a[1..] + b;
      assert InSeries(a[1..], |df|) by {
        forall k | 0 <= k < |a[1..]|
          ensures a[1..][k].index < |df|
        {
          assert a[1..][k] == a[k + 1];
        }
      }
      ProcessLevelsConcat(t', side, threshold, df, a[1..], b);
    }
  }

  /** Recording a single candidate is applying the evidence rule once, with its bar's close. */
  lemma ProcessLevelsSingle(t: Table, side: Side, threshold: real, df: seq<Bar>, c: Candidate)
    requires c.index < |df|
    ensures InSeries([c], |df|)
    ensures ProcessLevels(t, side, threshold, df, [c])
        == ApplyCandidate(t, side, threshold, c.index, c.price, df[c.index].close)
  {
    assert [c][1..] == [];
  }

  /** Two equal-price candidates whose bars close inside the support band leave a fresh level
      with two touches, last touched at the later bar. */
  lemma {:induction false} RepeatedSupportTouch(df: seq<Bar>, threshold: real, i: nat, j: nat, price: real)
    requires i < j < |df|
    requires price * (1.0 - threshold) <= df[j].close <= price
    ensures ProcessLevels(map[], Support, threshold, df, [Candidate(i, price), Candidate(j, price)])
        == map[price := Level(2, 0, j)]
  {
    var cs := [Candidate(i, price), Candidate(j, price)];
    var t1 := ApplyCandidate(map[], Support, threshold, i, price, df[i].close);
    assert t1 == map[price := Level(1, 0, i)];
    var t2 := ApplyCandidate(t1, Support, threshold, j, price, df[j].close);
    SupportBands(price, threshold, df[j].close);
    assert t2 == map[price := Level(2, 0, j)];
    assert cs[1..][1..] == [];
    assert ProcessLevels(t1, Support, threshold, df, cs[1..]) == ProcessLevels(t2, Support, threshold, df, cs[1..][1..]);
  }
}

=== FILE: scan.dfy ===
/** The extremum scan: trailing-window highs and lows, and one processing pass over a range. */
module Scan {
  import opened Bars
  import opened Levels

  /** The most extreme price of `side` over bars `lo .. hi-1`: the rolling max of highs or min
      of lows. */
  function WindowExtreme(side: Side, df: seq<Bar>, lo: nat, hi: nat): (r: real)
    requires lo < hi <= |df|
    ensures forall j :: lo <= j < hi ==> AtLeastAsExtreme(side, r, Price(side, df[j]))
    ensures exists j :: lo <= j < hi && r == Price(side, df[j])
    decreases hi - lo
  {
    if hi == lo + 1 then Price(side, df[lo])
    else MoreExtreme(side, WindowExtreme(side, df, lo, hi - 1), Price(side, df[hi - 1]))
  }

  /** The scan's test for bar `i`: a full trailing window of `w` bars ends at `i`, and the bar's
      price equals the window's extreme. */
  predicate Flagged(side: Side, df: seq<Bar>, w: nat, i: nat) {
    && w >= 1
    && w <= i + 1
    && i < |df|
    && Price(side, df[i]) == WindowExtreme(side, df, i + 1 - w, i + 1)
  }

  /** Bar `i` is a local extremum: no bar of its trailing window is more extreme. Ties qualify. */
  ghost predicate IsExtremum(side: Side, df: seq<Bar>, w: nat, i: nat) {
    && w >= 1
    && w <= i + 1
    && i < |df|
    && forall j :: i + 1 - w <= j <= i ==> AtLeastAsExtreme(side, Price(side, df[i]), Price(side, df[j]))
  }

  /** Comparing with the window's extreme finds exactly the local extrema. */
  lemma FlaggedIffExtremum(side: Side, df: seq<Bar>, w: nat, i: nat)
    ensures Flagged(side, df, w, i) <==> IsExtremum(side, df, w, i)
  {
    if IsExtremum(side, df, w, i) {
      var m := WindowExtreme(side, df, i + 1 - w, i + 1);
      var j :| i + 1 - w <= j < i + 1 && m == Price(side, df[j]);
      assert AtLeastAsExtreme(side, m, Price(side, df[i]));
    }
  }

  /** A bar strictly more extreme than every other bar is flagged, and the `w - 1` bars after it,
      whose windows contain it, are not. */
  lemma StrictPeakIsOnlyCandidate(side: Side, df: seq<Bar>, w: nat, m: nat)
    requires 1 <= w <= m + 1 && m < |df|
    requires forall j :: 0 <= j < |df| && j != m ==>
      AtLeastAsExtreme(side, Price(side, df[m]), Price(side, df[j])) && Price(side, df[m]) != Price(side, df[j])
    ensures Flagged(side, df, w, m)
    ensures forall j :: m < j < m + w ==> !Flagged(side, df, w, j)
  {
    FlaggedIffExtremum(side, df, w, m);
    forall j | m < j < m + w
      ensures !Flagged(side, df, w, j)
    {
      FlaggedIffExtremum(side, df, w, j);
    }
  }

  /** The candidates of one side: each flagged bar at or after `from`, in index order. There is
      no upper bound: the list runs to the end of the series. */
  function Candidates(side: Side, df: seq<Bar>, w: nat, from: nat): seq<Candidate>
    decreases |df| - from
  {
    if from >= |df| then []
    else
      var rest := Candidates(side, df, w, from + 1);
      if Flagged(side, df, w, from) then [Candidate(from, Price(side, df[from]))] + rest else rest
  }

  /** `c` is a flagged bar at or after `from`, carrying that bar's price. */
  predicate Emitted(side: Side, df: seq<Bar>, w: nat, from: nat, c: Candidate) {
    from <= c.index < |df| && Flagged(side, df, w, c.index) && c.price == Price(side, df[c.index])
  }

  /** Every candidate is a flagged bar at or after `from`, carrying that bar's price. */
  lemma {:induction false} CandidatesWithin(side: Side, df: seq<Bar>, w: nat, from: nat)
    ensures forall k :: 0 <= k < |Candidates(side, df, w, from)| ==>
      Emitted(side, df, w, from, Candidates(side, df, w, from)[k])
    decreases |df| - from
  {
    if from < |df| {
      CandidatesWithin(side, df, w, from + 1);
      var rest := Candidates(side, df, w, from + 1);
      if Flagged(side, df, w, from) {
        var c := Candidate(from, Price(side, df[from]));
        var r := [c] + rest;
        assert Candidates(side, df, w, from) == r;
        forall k | 0 <= k < |r|
          ensures Emitted(side, df, w, from, r[k])
        {
          if k > 0 {
            assert r[k] == rest[k - 1];
            assert Emitted(side, df, w, from + 1, rest[k - 1]);
          }
        }
      } else {
        assert Candidates(side, df, w, from) == rest;
      }
    }
  }

  /** Candidate indices strictly ascend along the list. */
  predicate Ascending(cs: seq<Candidate>) {
    forall k, l :: 0 <= k < l < |cs| ==> cs[k].index < cs[l].index
  }

  /** Candidate indices strictly ascend. */
  lemma {:induction false} CandidatesAscending(side: Side, df: seq<Bar>, w: nat, from: nat)
    ensures Ascending(Candidates(side, df, w, from))
    decreases |df| - from
  {
    if from < |df| {
      CandidatesAscending(side, df, w, from + 1);
      CandidatesWithin(side, df, w, from + 1);
      var rest := Candidates(side, df, w, from + 1);
      if Flagged(side, df, w, from) {
        var c := Candidate(from, Price(side, df[from]));
        var r := [c] + rest;
        assert Candidates(side, df, w, from) == r;
        forall k, l | 0 <= k < l < |r|
          ensures r[k].index < r[l].index
        {
          assert r[l] == rest[l - 1];
          assert Emitted(side, df, w, from + 1, rest[l - 1]);
          if k > 0 {
            assert r[k] == rest[k - 1];
            assert rest[k - 1].index < rest[l - 1].index;
          }
        }
      } else {
        assert Candidates(side, df, w, from) == rest;
      }
    }
  }

  /** No flagged bar at or after `from` is missed. */
  lemma {:induction false} CandidatesComplete(side: Side, df: seq<Bar>, w: nat, from: nat)
    ensures forall i :: from <= i < |df| && Flagged(side, df, w, i) ==> i in Indices(Candidates(side, df, w, from))
    decreases |df| - from
  {
    if from < |df| {
      CandidatesComplete(side, df, w, from + 1);
      var rest := Candidates(side, df, w, from + 1);
      if Flagged(side, df, w, from) {
        var c := Candidate(from, Price(side, df[from]));
        var r := [c] + rest;
        assert Candidates(side, df, w, from) == r;
        assert r[1..] == rest;
        assert Indices(r) == {from} + Indices(rest);
      } else {
        assert Candidates(side, df, w, from) == rest;
      }
    }
  }

  /** Every candidate is a flagged bar at or after `from` carrying that bar's price; indices
      strictly ascend; and no flagged bar at or after `from` is missed. */
  lemma CandidatesSound(side: Side, df: seq<Bar>, w: nat, from: nat)
    ensures var r := Candidates(side, df, w, from);
      && (forall k :: 0 <= k < |r| ==>
            && from <= r[k].index < |df|
            && Flagged(side, df, w, r[k].index)
            && r[k].price == Price(side, df[r[k].index]))
      && Ascending(r)
      && (forall i :: from <= i < |df| && Flagged(side, df, w, i) ==> i in Indices(r))
  {
    CandidatesWithin(side, df, w, from);
    CandidatesAscending(side, df, w, from);
    CandidatesComplete(side, df, w, from);
  }

  /** Candidates point at bars of the series. */
  lemma CandidatesInSeries(side: Side, df: seq<Bar>, w: nat, from: nat)
    ensures InSeries(Candidates(side, df, w, from), |df|)
  {
    CandidatesSound(side, df, w, from);
  }

  /** Membership in the candidate list is exactly being a local extremum at or after `from`. */
  lemma CandidateIndicesExact(side: Side, df: seq<Bar>, w: nat, from: nat, i: nat)
    ensures i in Indices(Candidates(side, df, w, from)) <==> from <= i < |df| && IsExtremum(side, df, w, i)
  {
    var cs := Candidates(side, df, w, from);
    CandidatesSound(side, df, w, from);
    IndicesMember(cs, i);
    FlaggedIffExtremum(side, df, w, i);
    if i in Indices(cs) {
      var k :| 0 <= k < |cs| && cs[k].index == i;
    }
  }

  /** An index is in `Indices(cs)` exactly when some candidate carries it. */
  lemma {:induction false} IndicesMember(cs: seq<Candidate>, i: nat)
    ensures i in Indices(cs) <==> exists k :: 0 <= k < |cs| && cs[k].index == i
  {
    if |cs| > 0 {
      IndicesMember(cs[1..], i);
      if exists k :: 0 <= k < |cs[1..]| && cs[1..][k].index == i {
        var k :| 0 <= k < |cs[1..]| && cs[1..][k].index == i;
        assert cs[k + 1].index == i;
      }
      if exists k :: 0 <= k < |cs| && cs[k].index == i {
        var k :| 0 <= k < |cs| && cs[k].index == i;
        if k > 0 {
          assert cs[1..][k - 1].index == i;
        }
      }
    }
  }

  /** A price is in `Prices(cs)` exactly when some candidate carries it. */
  lemma {:induction false} PricesMember(cs: seq<Candidate>, p: real)
    ensures p in Prices(cs) <==> exists k :: 0 <= k < |cs| && cs[k].price == p
  {
    if |cs| > 0 {
      PricesMember(cs[1..], p);
      if exists k :: 0 <= k < |cs[1..]| && cs[1..][k].price == p {
        var k :| 0 <= k < |cs[1..]| && cs[1..][k].price == p;
        assert cs[k + 1].price == p;
      }
      if exists k :: 0 <= k < |cs| && cs[k].price == p {
        var k :| 0 <= k < |cs| && cs[k].price == p;
        if k > 0 {
          assert cs[1..][k - 1].price == p;
        }
      }
    }
  }

  /** A price is a candidate price exactly when some local extremum at or after `from` has it. */
  lemma CandidatePricesExact(side: Side, df: seq<Bar>, w: nat, from: nat, p: real)
    ensures p in Prices(Candidates(side, df, w, from))
        <==> exists i :: from <= i < |df| && IsExtremum(side, df, w, i) && Price(side, df[i]) == p
  {
    var cs := Candidates(side, df, w, from);
    CandidatesSound(side, df, w, from);
    PricesMember(cs, p);
    if p in Prices(cs) {
      var k :| 0 <= k < |cs| && cs[k].price == p;
      FlaggedIffExtremum(side, df, w, cs[k].index);
    }
    if exists i :: from <= i < |df| && IsExtremum(side, df, w, i) && Price(side, df[i]) == p {
      var i :| from <= i < |df| && IsExtremum(side, df, w, i) && Price(side, df[i]) == p;
      FlaggedIffExtremum(side, df, w, i);
      IndicesMember(cs, i);
      var k :| 0 <= k < |cs| && cs[k].index == i;
      assert cs[k].price == p;
    }
  }

  /** Scanning from a later start can only drop candidate prices. */
  lemma CandidatePricesShrink(side: Side, df: seq<Bar>, w: nat, a: nat, b: nat)
    requires a <= b
    ensures Prices(Candidates(side, df, w, b)) <= Prices(Candidates(side, df, w, a))
  {
    forall p | p in Prices(Candidates(side, df, w, b))
      ensures p in Prices(Candidates(side, df, w, a))
    {
      CandidatePricesExact(side, df, w, b, p);
      CandidatePricesExact(side, df, w, a, p);
    }
  }

  /** One step of the candidate list: the bar at `i`, if flagged, then the rest. */
  lemma CandidatesStep(side: Side, df: seq<Bar>, w: nat, i: nat)
    requires i < |df|
    ensures Candidates(side, df, w, i) ==
      (if Flagged(side, df, w, i) then [Candidate(i, Price(side, df[i]))] else []) + Candidates(side, df, w, i + 1)
  {
  }

  /** Computes one side's candidate list the way the rolling window does: for each bar from
      `start` on, the extreme of its trailing window, compared with the bar's own price. */
  method ScanCandidates(side: Side, df: seq<Bar>, w: nat, start: nat) returns (cs: seq<Candidate>)
    ensures cs == Candidates(side, df, w, start)
  {
    cs := [];
    var i := start;
    while i < |df|
      invariant start <= i
      invariant cs + Candidates(side, df, w, i) == Candidates(side, df, w, start)
      decreases |df| - i
    {
      var flagged := false;
      if 1 <= w <= i + 1 {
        var m := WindowExtremeLoop(side, df, i + 1 - w, i + 1);
        flagged := Price(side, df[i]) == m;
        assert flagged == Flagged(side, df, w, i);
      } else {
        assert !Flagged(side, df, w, i);
      }
      var step := if flagged then [Candidate(i, Price(side, df[i]))] else [];
      CandidatesStep(side, df, w, i);
      ghost var rest := Candidates(side, df, w, i + 1);
      assert Candidates(side, df, w, i) == step + rest;
      ConcatAssoc(cs, step, rest);
      cs := cs + step;
      i := i + 1;
    }
    assert Candidates(side, df, w, i) == [];
    assert cs + [] == cs;
  }

  lemma ConcatAssoc<T>(a: seq<T>, b: seq<T>, c: seq<T>)
    ensures a + (b + c) == (a + b) + c
  {
  }

  /** The extreme of bars `lo .. hi-1`, folded from the left as a rolling window does. */
  method WindowExtremeLoop(side: Side, df: seq<Bar>, lo: nat, hi: nat) returns (m: real)
    requires lo < hi <= |df|
    ensures m == WindowExtreme(side, df, lo, hi)
  {
    m := Price(side, df[lo]);
    var j := lo + 1;
    while j < hi
      invariant lo < j <= hi
      invariant m == WindowExtreme(side, df, lo, j)
      decreases hi - j
    {
      m := MoreExtreme(side, m, Price(side, df[j]));
      j := j + 1;
    }
  }

  /** One pass over the range `start .. end`: nothing when fewer than `w` bars are in range,
      otherwise the lows then the highs from `start` on are recorded in their tables. */
  function VectorizedProcess(w: nat, threshold: real, df: seq<Bar>, start: nat, end: int, tables: Tables): (r: Tables)
    ensures end - start < w ==> r == tables
    ensures r.support.Keys >= tables.support.Keys && r.resistance.Keys >= tables.resistance.Keys
    ensures end - start >= w ==> r.support.Keys == tables.support.Keys + Prices(Candidates(Support, df, w, start))
    ensures end - start >= w ==> r.resistance.Keys == tables.resistance.Keys + Prices(Candidates(Resistance, df, w, start))
    ensures forall p :: p in tables.support ==> Accumulates(tables.support[p], r.support[p])
    ensures forall p :: p in tables.resistance ==> Accumulates(tables.resistance[p], r.resistance[p])
    ensures WellFormed(tables.support) ==> WellFormed(r.support)
    ensures WellFormed(tables.resistance) ==> WellFormed(r.resistance)
    ensures TouchesBefore(tables.support, |df|) ==> TouchesBefore(r.support, |df|)
    ensures TouchesBefore(tables.resistance, |df|) ==> TouchesBefore(r.resistance, |df|)
  {
    if end - start < w then tables
    else
      var lows := Candidates(Support, df, w, start);
      var highs := Candidates(Resistance, df, w, start);
      CandidatesInSeries(Support, df, w, start);
      CandidatesInSeries(Resistance, df, w, start);
      Tables(ProcessLevels(tables.support, Support, threshold, df, lows),
             ProcessLevels(tables.resistance, Resistance, threshold, df, highs))
  }

  /** A level of either side changes only when some local extremum of that side at or after
      `start` sits at its price. */
  lemma UntouchedLevelUnchanged(side: Side, w: nat, threshold: real, df: seq<Bar>, start: nat, end: int, tables: Tables, p: real)
    requires p in tables.Of(side)
    requires forall i :: start <= i < |df| && IsExtremum(side, df, w, i) ==> Price(side, df[i]) != p
    ensures VectorizedProcess(w, threshold, df, start, end, tables).Of(side)[p] == tables.Of(side)[p]
  {
    CandidatePricesExact(side, df, w, start, p);
  }
}

=== FILE: wrappers.dfy ===
/** Failure-carrying datatypes shared by the detector and the dashboard helpers. */
module Wrappers {

  /** An optional value: Python's `None` or a present value. */
  datatype Option<+T> = None | Some(value: T)

  /** The outcome of an operation that can raise. */
  datatype Result<+T, +E> = Success(value: T) | Failure(error: E)
}
